=== FILE: README.md ===
# aw_lunch: the layout core of a lunch-menu image bot

The bot reads a school's lunch menu from an RSS feed, renders the menu as a
square 1080×1080 image and posts it to Instagram. It exists in three
versions: `src/aw_lunch.py` (the first), `src/aw_lunch_2.0.py` and
`src/aw_lunch_3.0.py`. Each version mixes network and upload plumbing with a
few small pure pieces. This project models those pure pieces and proves
what they promise:

- **Line wrappers.** The newest version has `wrap_text`, a greedy wrapper
  that works one character at a time (module `CharWrap`). The two older
  versions share an identical word-based `wrap_text` (module `WordWrap`).
  A font's `getlength` becomes a parameter `width: string -> real`, so
  nothing is assumed about the font.
- **Card layout of the newest version** (module `CardLayout`). This is the
  integer arithmetic of `create_image`:
  - the supersampled canvas and paddings;
  - the first pass that adds up `required_height`;
  - the centring `y = height // 2 - required_height // 2`;
  - the second pass that places each card, its title and summary
    backgrounds, and the two text origins.

  Drawing is reduced to the rectangles and origins it would be given.
- **Text layout of the older versions** (modules `Menu`, `MenuV2`,
  `MenuV1`). This covers:
  - font sizes computed from the entry count;
  - a sizing pass and a start offset;
  - a placement pass that draws each wrapped title at the padding, with
    its wrapped summary indented below it.

  Positions are `real`, because the summary is lowered by
  `1.5 * summary_font_size` and indented by a measured width.
- **The Monday test.** On Mondays the bot also posts the whole week's menu.
  The second version tests the title's whitespace-separated words,
  case-insensitively (`MenuV2.IsMonday`). The first version's test
  iterates the title's characters and so can never succeed
  (`MenuV1.IsMondayAsWritten`; see Findings).

Module `Text` holds the parts of Python's `str` that the code relies on:
- `isspace` (the 29 whitespace code points);
- `strip`;
- argument-less `split`;
- `split("\n")`;
- `"\n".join`;
- `lower`, for the code points that lower to a letter of `måndag` or `monday` (see "## Left out").

Two behaviours of the newest `wrap_text` (src/aw_lunch_3.0.py:52-67) shape
what it can promise:
- A word ends only at a plain space `' '` or a line break `'\n'`. A space
  appends the word to the current line; a line break appends it and then
  closes the line. Tabs and the other whitespace stay inside the word.
- It checks the width after every character, not once per word. Every
  character whose check fails opens one line, and the word lands on the
  last of them (`CharWrap.OverflowOpensLine`). A long word can therefore
  leave empty lines in front of it.

## Model

| member | source | states |
|---|---|---|
| Text.Strip | src/aw_lunch_2.0.py:43 | `str.strip()`, used again at src/aw_lunch_3.0.py:53 and :69; specified by `StripSpec` and `StripKeepsNonSpace` |
| Text.Split | src/aw_lunch_2.0.py:41 | argument-less `str.split()`, used again at :137; every piece is a word, and `SplitAtSpace` and `SplitWord` pin down where it cuts |
| Text.SplitLines | src/aw_lunch_2.0.py:87 | `str.split("\n")`, always at least one piece; specified by `SplitLinesSpec` and `SplitLinesOfJoin` |
| Text.Join | src/aw_lunch_2.0.py:47 | `"\n".join(lines)`; specified by `JoinAppend` and `SplitLinesOfJoin` |
| Text.Lower | src/aw_lunch_2.0.py:137 | `str.lower()` keeps the length, leaves no ASCII capital, keeps lower-case ASCII letters and keeps whitespace as whitespace; `LowerIdempotent` shows a second lowering changes nothing; the code points covered are listed under "## Left out" |
| Text.StripSpec | src/aw_lunch_3.0.py:53 | `text.strip()` has no whitespace at either end, and the input is that string with only whitespace before and after it |
| Text.StripKeepsNonSpace | src/aw_lunch_3.0.py:69 | stripping a line removes whitespace only: its non-whitespace characters are unchanged |
| Text.SplitAtSpace | src/aw_lunch_2.0.py:41 | `text.split()` splits at every whitespace character: the words of `a + c + b` are the words of `a` followed by those of `b` |
| Text.SplitWord | src/aw_lunch_2.0.py:41 | a run of non-whitespace splits to itself alone |
| Text.SplitLinesSpec | src/aw_lunch_2.0.py:87 | the pieces of `text.split("\n")` contain no line break, and joining them with line breaks gives back the text |
| Text.SplitLinesOfJoin | src/aw_lunch_2.0.py:47 | joining break-free lines with `"\n"` and splitting at `"\n"` gives back exactly those lines |
| CharWrap.Step | src/aw_lunch_3.0.py:54-67 | one iteration of the scanning loop appends at most one line and leaves every line before the last unchanged |
| CharWrap.Run | src/aw_lunch_3.0.py:53-67 | after scanning `s`, there is at least one line per line break in `s` plus one, and at most `len(s) + 1` lines |
| CharWrap.StripAll | src/aw_lunch_3.0.py:69 | the returned list is the line list with each line stripped, position for position |
| CharWrap.WrapText | src/aw_lunch_3.0.py:49-69 | `wrap_text` returns at least one line |
| CharWrap.WrapLinesStripped | src/aw_lunch_3.0.py:69 | every returned line has no leading or trailing whitespace |
| CharWrap.StepKeepsNonSpace | src/aw_lunch_3.0.py:54-67 | each iteration moves the scanned character's non-whitespace into the lines or the pending word, without loss or reordering |
| CharWrap.RunKeepsNonSpace | src/aw_lunch_3.0.py:53-67 | at any point of the scan, the lines so far followed by the pending word hold exactly the non-whitespace characters scanned, in order |
| CharWrap.RunFlushesAtSpace | src/aw_lunch_3.0.py:65-67 | the space appended to the text empties the pending word at the end of the scan |
| CharWrap.WrapKeepsNonSpace | src/aw_lunch_3.0.py:53-69 | read across the returned lines, the non-whitespace characters equal those of the input: nothing is dropped or reordered |
| CharWrap.WrapLineCount | src/aw_lunch_3.0.py:53-63 | the line count is at least one plus the number of line breaks in `text.strip()`, and at most `len(text.strip()) + 2` |
| CharWrap.SpaceFlush | src/aw_lunch_3.0.py:60-67 | at a space, the pending word joins the current line exactly when the widened line fits; otherwise it starts a new line and earlier lines stay as they were; either way the word is emptied |
| CharWrap.OverflowOpensLine | src/aw_lunch_3.0.py:60-63 | inside a word, every character that takes the current line plus the word past the limit opens one more empty line |
| WordWrap.Place | src/aw_lunch_2.0.py:42-46 | placing a word changes only the last line or appends one line, earlier lines are left as they were, and the line count stays the same exactly when the stripped, widened last line fits the line length |
| WordWrap.Lines | src/aw_lunch_2.0.py:40-46 | the loop builds at least one line and at most one more line than there are words |
| WordWrap.WrapText | src/aw_lunch_2.0.py:39-47 | `wrap_text` of the two older versions (src/aw_lunch.py:33-41 is the same code); specified by `WrapLines`, `WrapKeepsWords`, `WrapLinesFit`, `WrapFirstLine` and `WrapBreaksForced` below |
| WordWrap.PlaceKeeps | src/aw_lunch_2.0.py:42-46 | one iteration keeps the loop invariant: lines stripped and break-free, later lines non-empty, each line fitting or a single word, the words in order |
| WordWrap.PlaceForced | src/aw_lunch_2.0.py:42-46 | one iteration keeps every break forced: after each non-empty line, the next line's first word would not have fitted on it |
| WordWrap.LinesForced | src/aw_lunch_2.0.py:40-46 | every break in the built line list was forced |
| WordWrap.LinesWrapped | src/aw_lunch_2.0.py:40-46 | the invariant holds after all the words of the text (the first version's copy, src/aw_lunch.py:34-40, is the same code) |
| WordWrap.SplitOfJoin | src/aw_lunch_2.0.py:47 | joining lines with line breaks keeps every line's words, in order |
| WordWrap.WrapLines | src/aw_lunch_2.0.py:40-47 | `len(wrap_text(...).split("\n"))` is exactly the number of lines the loop built |
| WordWrap.WrapKeepsWords | src/aw_lunch_2.0.py:41-47 | splitting the result on whitespace gives exactly `text.split()`: no word is lost, broken, merged or reordered (the same in src/aw_lunch.py:35-41) |
| WordWrap.WrapLinesFit | src/aw_lunch_2.0.py:42-46 | every result line fits the line length, or is a single word that did not fit, or is the untouched empty first line (the same in src/aw_lunch.py:36-40) |
| WordWrap.WrapFirstLine | src/aw_lunch_2.0.py:40-46 | the first line is empty exactly when the text has no words or its first word is too wide, and every later line is non-empty (the same in src/aw_lunch.py:34-40) |
| WordWrap.WrapBreaksForced | src/aw_lunch_2.0.py:42-47 | greedy: after every non-empty result line, the first word of the next line would not have fitted after it, so no line was broken early (the same in src/aw_lunch.py:36-41) |
| Menu.SizesFor | src/aw_lunch_2.0.py:77-78 | the title font is always 8 larger than the summary font, and the summary font is `52 - 4 * N` for N entries |
| Menu.SizesShrinkPerEntry | src/aw_lunch.py:47-48 | one more entry makes both fonts exactly 4 smaller |
| Menu.LineCount | src/aw_lunch_2.0.py:87 | `len(summary_text.split("\n"))` is at least one (the same count in src/aw_lunch.py:59) |
| Menu.WrapSummaries | src/aw_lunch_2.0.py:86 | one wrapped summary per entry, in both older versions |
| Menu.WrapTitles | src/aw_lunch_2.0.py:95 | one wrapped title per entry, in both older versions |
| Menu.SummaryLineCounts | src/aw_lunch_2.0.py:86-87 | each summary's line count is the number of lines the word wrapper built for it |
| CardLayout.FloorDiv | src/aw_lunch_3.0.py:120 | Python's `//` with a positive divisor rounds down: `b*q <= a < b*q + b` |
| CardLayout.WrapSummaries | src/aw_lunch_3.0.py:115-116 | every entry's summary wraps to at least one line |
| CardLayout.Place | src/aw_lunch_3.0.py:122-156 | the placement loop produces one card per entry |
| CardLayout.CreateImage | src/aw_lunch_3.0.py:96-156 | `create_image` lays out one card per entry |
| CardLayout.Sizing | src/aw_lunch_3.0.py:115-118 | the sizing loop with its inline height formula; `SizingAddsCardHeights` proves it adds exactly the drawn card heights and `SizingEven` that it keeps an even total even |
| CardLayout.RequiredHeight | src/aw_lunch_3.0.py:113-118 | `required_height`; `RequiredHeightIsStack` proves it equals the card heights plus `inner_padding * (N - 1)` |
| CardLayout.Top | src/aw_lunch_3.0.py:120 | `height // 2 - required_height // 2` leaves a top margin equal to the bottom margin or one more, for any required height, even the negative one of an empty menu |
| CardLayout.CardAt | src/aw_lunch_3.0.py:125-154 | one card: its frame, backgrounds and text origins at top `y`; `CardAtNested` states how the pieces nest |
| CardLayout.BoxHeights | src/aw_lunch_3.0.py:125-126 | a card is seven inner paddings taller than its summary background, and that background is at least three paddings tall |
| CardLayout.CardAtNested | src/aw_lunch_3.0.py:125-154 | within a card: the title background spans `[y+ip, y+5ip]`; the summary background starts one padding below it, ends one padding above the card's bottom and is inset by `3*ip` on both sides; each text starts inside its background; the card shows the entry's title and joined summary lines |
| CardLayout.PlaceNested | src/aw_lunch_3.0.py:122-154 | every placed card is nested that way and carries its own entry's title and wrapped summary |
| CardLayout.PlaceStacks | src/aw_lunch_3.0.py:128-156 | the first card's top is the start `y`; each next card's top is the previous card's bottom plus `inner_padding`, so cards never overlap |
| CardLayout.SizingAddsCardHeights | src/aw_lunch_3.0.py:115-118 | the sizing loop adds exactly the heights of the cards the second loop draws |
| CardLayout.RequiredHeightIsStack | src/aw_lunch_3.0.py:113-125 | `required_height` equals the drawn cards' heights plus `inner_padding * (N - 1)` |
| CardLayout.PlaceBottom | src/aw_lunch_3.0.py:128-156 | the last card's bottom is the start plus all card heights plus one padding per gap |
| CardLayout.StackEndsAtRequiredHeight | src/aw_lunch_3.0.py:113-156 | the stack starts at `y` and its last card ends exactly at `y + required_height` |
| CardLayout.SizingEven | src/aw_lunch_3.0.py:115-118 | from an even start, the sizing loop's total stays even |
| CardLayout.CentredExactly | src/aw_lunch_3.0.py:113-120 | with these constants the required height is always even, so the stack is centred exactly |
| CardLayout.EvenCentred | src/aw_lunch_3.0.py:120 | an even required height leaves equal margins above and below |
| CardLayout.FitsWhenShortEnough | src/aw_lunch_3.0.py:120 | a stack no taller than the canvas lies within it |
| MenuV2.StartOffset | src/aw_lunch_2.0.py:89 | the float `//` gives a whole number that is at most half the space left and less than one below it |
| MenuV2.EntryHeight | src/aw_lunch_2.0.py:87 | the height the first pass counts per entry; `EntryHeightIsAdvance` relates it to the placement step |
| MenuV2.Sizing | src/aw_lunch_2.0.py:83-88 | the first pass; `PlacementAdvance` relates its total to the distance the placement pass moves |
| MenuV2.Advance | src/aw_lunch_2.0.py:101 | the placement step per entry; `EntryHeightIsAdvance` and `PlacementsStack` state it |
| MenuV2.PlaceFrom | src/aw_lunch_2.0.py:94-101 | the placement loop draws one title and summary per entry |
| MenuV2.GenerateImage | src/aw_lunch_2.0.py:72-104 | `generate_image` draws one title and summary per entry |
| MenuV2.EntryHeightIsAdvance | src/aw_lunch_2.0.py:87-101 | per entry, the sizing pass counts `1.5 * summary_font_size` more than the placement pass moves |
| MenuV2.PlacementAdvance | src/aw_lunch_2.0.py:83-101 | over all entries, the placement pass moves by the sizing total less `1.5 * summary_font_size * N` |
| MenuV2.PlacementsIndented | src/aw_lunch_2.0.py:98-99 | every title is at `x = PADDING`, and its summary is `indent` right of and `1.5 * summary_font_size` below it |
| MenuV2.PlacementsStack | src/aw_lunch_2.0.py:98-101 | the first title is `offset` below the padding; each next one is two title sizes plus one summary size per line of the previous summary lower |
| MenuV2.GeneratedPlacements | src/aw_lunch_2.0.py:81-101 | `generate_image` draws each entry's wrapped title and wrapped summary, the first title at the start offset, each summary indented by four spaces' width and lowered by `1.5 * summary_font_size` |
| MenuV2.IsMondayName | src/aw_lunch_2.0.py:137 | `word.lower() in ["måndag", "monday"]`; `MondayOfWord` ties it to the whole test |
| MenuV2.IsMonday | src/aw_lunch_2.0.py:137 | the Monday test on the title's words; specified by `MondayAtSpace`, `MondayOfWord`, `MondayOfBlank` and `MondayFirstWord` |
| MenuV2.MondayAtSpace | src/aw_lunch_2.0.py:137 | the Monday test looks at the words on either side of any whitespace character on their own |
| MenuV2.MondayOfWord | src/aw_lunch_2.0.py:137 | a single word passes exactly when its lower case is `måndag` or `monday` |
| MenuV2.MondayOfBlank | src/aw_lunch_2.0.py:137 | a title of only whitespace never passes |
| MenuV2.MondayFirstWord | src/aw_lunch_2.0.py:137 | a title whose first word is a Monday name in any mix of cases, followed by a space, passes whatever comes after |
| MenuV2.ExampleMondayTitles | src/aw_lunch_2.0.py:137 | the example Monday titles `Måndag 12 okt` and `Monday 12 Oct` pass |
| MenuV1.TotalIsSum | src/aw_lunch.py:55-59 | the sizing total is `2 * padding` plus, per entry, two title sizes and one summary size per summary line |
| MenuV1.EntryHeight | src/aw_lunch.py:59 | the per-entry height, the same formula in both passes (src/aw_lunch.py:70); `PlacementsStack` and `TotalIsSum` state it |
| MenuV1.Sizing | src/aw_lunch.py:55-59 | the first pass; `TotalIsSum` gives its closed sum and `PlacementAdvance` proves the placement pass moves exactly as far |
| MenuV1.Total | src/aw_lunch.py:55-59 | the sizing total; `TotalIsSum` and `StackCentred` state it |
| MenuV1.StartOffset | src/aw_lunch.py:61 | `(1080 - total) // 2` is half the space left, rounded down |
| MenuV1.PlaceFrom | src/aw_lunch.py:63-70 | the placement loop draws one title and summary per entry |
| MenuV1.DrawPass | src/aw_lunch.py:63-73 | the drawing loop of `generate_image` places one title and summary per entry |
| MenuV1.GenerateImage | src/aw_lunch.py:43-73 | `generate_image` draws one title and summary per entry |
| MenuV1.PlacementAdvance | src/aw_lunch.py:55-70 | the placement loop moves exactly as far as the sizing loop counted |
| MenuV1.PlacementsIndented | src/aw_lunch.py:67-68 | every title is at `x = padding`, and its summary is `indent` right of and `1.5 * summary_font_size` below it |
| MenuV1.PlacementsStack | src/aw_lunch.py:67-70 | consecutive titles are exactly two title sizes plus one summary size per line of the previous summary apart |
| MenuV1.GeneratedPlacements | src/aw_lunch.py:52-70 | `generate_image` draws each entry's wrapped title and summary, the first title at the start offset, consecutive titles one entry height apart, each summary indented and lowered |
| MenuV1.StackCentred | src/aw_lunch.py:55-70 | the block from the first title down to where the placement loop ends is centred: the margin below equals the margin above or exceeds it by one |
| MenuV1.IsMondayAsWritten | src/aw_lunch.py:87 | the test as written is false for every title |
| MenuV1.MondayTitleMissed | src/aw_lunch.py:87 | the test as written misses the example Monday title `Måndag 12 okt` |
| MenuV1.IsMondayByWord | src/aw_lunch.py:87 | the corrected test on the title's words; specified by `ByWordAtSpace`, `ByWordOfWord`, `MondayTitleFound` and `ByWordIsMonday` |
| MenuV1.ByWordAtSpace | src/aw_lunch.py:87 | the corrected word test looks at the words on either side of any whitespace character on their own |
| MenuV1.ByWordOfWord | src/aw_lunch.py:87 | a single word passes the corrected test exactly when it is one of the four listed spellings |
| MenuV1.MondayTitleFound | src/aw_lunch.py:87 | the corrected word test recognises the example title `Måndag 12 okt` |
| MenuV1.ByWordIsMonday | src/aw_lunch.py:87 | every title the corrected test recognises is a Monday title for the second version's test too |

## Left out

- `rainbow`, `gradient` and the random angle: floating-point trigonometry and per-pixel colour blending on image buffers. The newest version offsets the second colour by 2π/3, not π, but this too is floating point and not modelled.
- The drawing itself is left out: rounded rectangles, drawing text into the mask, compositing, the LANCZOS resize, and JPEG saving. These are calls into the imaging library. Only the rectangles and origins that the layout hands to them are modelled.
- Font loading (`truetype`): a font's `getlength` becomes an abstract width function. The loader's failure on a non-positive size is not modelled; this happens in the older versions from 13 entries on, where the summary size `52 - 4*N` reaches zero.
- CardLayout.CardAtNested: the title background's right edge depends on the measured title width, so no bound is claimed for it.
- Fetching the feed (`get_data`, `get_menu`), including replacing `<br />` with line breaks: network I/O. Entries reach the model as (title, summary) pairs; the publication date the newest version carries is never used by the layout and is dropped.
- Login, upload, polling with `sleep`, and the busy-wait on the `.REMOVE_ME` marker file: external side effects.
- The main loops' bookkeeping (`last_day`, `latest_title`, the weekday check on the publication date in the newest version): control flow around network calls. The older versions' title tests are modelled as predicates.
- Both passes of each layout wrap every summary again with the same font and width. The wrapper is a function of its inputs, so the model wraps once and hands the same lines to both passes.
- CharWrap.WrapText: re-wrapping an already wrapped text is not proved to reproduce it. The contracts state what one wrap keeps and where it breaks lines, not idempotence. No width bound is claimed for the returned lines either, and none follows from the code. The check at src/aw_lunch_3.0.py:62 measures `lines[-1] + " " + word` before the line is stripped at :69, so it measures spaces that the returned line no longer has. Some final lines are never measured at all:
  - A word whose closing space overflows goes onto a fresh line (:63, then :66), and that `" " + word` is never measured.
  - A line break (:55) appends `" " + word` to the line without measuring it. For `"a b \nc"`, the measured `" a  b "` becomes `" a  b  "`, which is never measured.
- Text.LowerChar: `str.lower` is modelled for ASCII, the Latin-1 capitals, KELVIN SIGN and ANGSTROM SIGN only; other code points are returned unchanged. They include every code point that Python lowers to a letter of `måndag` or `monday`, and the one multi-character result, U+0130 to `i̇`, holds none of those letters, so the restriction never changes the Monday test's answer.
- Positions, indents and line lengths in the two older versions are Python floats and are modelled as exact reals. The values involved are integers, halves from the `1.5` factor and FreeType widths in 1/64 pixel, all far below 2^53, so binary64 holds them exactly and no rounding occurs.

## Findings

| source | as written | input that shows it | evidently intended | confidence | as-written member | corrected member |
|---|---|---|---|---|---|---|
| src/aw_lunch.py:87 | `any(word in [...] for word in today)` iterates the title's characters, and a single character never equals a six-letter weekday name, so the weekly menu is never posted | `today = "Måndag 12 okt"` | test the title's whitespace-separated words, as the second version does | high (proved; not executed) | MenuV1.IsMondayAsWritten | MenuV1.MondayTitleFound |

=== FILE: card_layout.dfy ===
/** The layout arithmetic of the newest renderer. The image is composed at
    twice the output size; each menu entry becomes a card whose height
    follows from the number of wrapped summary lines, the cards are stacked
    with a fixed gap, and the stack is centred vertically. Drawing is
    reduced to the rectangles and text origins it is given. */
module CardLayout {
  import opened Text
  import CharWrap
  import opened Menu

  const ImageWidth := 1080
  const ImageHeight := 1080
  const ImageOuterPadding := 96
  const ImageInnerPadding := 16
  const SupersamplingScale := 2

  /** The supersampled canvas and paddings actually drawn with. */
  const Width := ImageWidth * SupersamplingScale
  const Height := ImageHeight * SupersamplingScale
  const OuterPadding := ImageOuterPadding * SupersamplingScale
  const InnerPadding := ImageInnerPadding * SupersamplingScale

  /** The width summaries are wrapped to. */
  const SummaryWrapWidth := Width - (OuterPadding + 2 * InnerPadding) * 2

  datatype Rect = Rect(left: int, top: int, right: int, bottom: int)

  /** The title background: its right edge follows the title's measured width. */
  datatype TitleRect = TitleRect(left: int, top: int, right: real, bottom: int)

  datatype Origin = Origin(x: int, y: int)

  /** Everything drawn for one entry: the card, the title and summary
      backgrounds inset in it, and the two texts with their origins. */
  datatype Card = Card(
    frame: Rect,
    titleBox: TitleRect,
    summaryBox: Rect,
    titleOrigin: Origin,
    title: string,
    summaryOrigin: Origin,
    summary: string)

  /** Python's `a // b` for a positive divisor: the quotient rounded down. */
  function FloorDiv(a: int, b: int): (q: int)
    requires b > 0
    ensures b * q <= a < b * q + b
  {
    a / b
  }

  function SummaryLines(summary: string, summaryWidth: string -> real): (lines: seq<string>)
    ensures |lines| >= 1
  {
    CharWrap.WrapText(summary, summaryWidth, SummaryWrapWidth as real)
  }

  /** Each entry's summary, wrapped. Both loops wrap every summary with the
      same font and width, so they see the same lines. */
  function WrapSummaries(entries: seq<Entry>, summaryWidth: string -> real): (wrapped: seq<seq<string>>)
    ensures |wrapped| == |entries|
    ensures AllWrapped(wrapped)
  {
    seq(|entries|, i requires 0 <= i < |entries| => SummaryLines(entries[i].summary, summaryWidth))
  }

  /** Every wrapped summary has at least one line. */
  predicate AllWrapped(wrapped: seq<seq<string>>) {
    forall i :: 0 <= i < |wrapped| ==> |wrapped[i]| >= 1
  }

  /** The extra gap between summary lines. */
  function LineSpacing(lineCount: int): int {
    (lineCount - 1) * 4 * SupersamplingScale
  }

  function DayBoxHeight(lineCount: int): int {
    InnerPadding * (8 + 2 * lineCount) + LineSpacing(lineCount)
  }

  function SummaryBoxHeight(lineCount: int): int {
    InnerPadding * (1 + 2 * lineCount) + LineSpacing(lineCount)
  }

  // ---------------------------------------------------------------------
  // First pass: the height the stack needs

  /** The sizing loop over the wrapped summaries, with `acc` the height
      accumulated so far; each entry's height is written out as the loop
      writes it. */
  function Sizing(wrapped: seq<seq<string>>, acc: int): int
    decreases |wrapped|
  {
    if |wrapped| == 0 then acc
    else
      var lineCount := |wrapped[0]|;
      var extraSpacing := (lineCount - 1) * 4 * SupersamplingScale;
      Sizing(wrapped[1..], acc + InnerPadding * (8 + 2 * lineCount) + extraSpacing)
  }

  /** `required_height`: the loop starts from the gaps between the cards. */
  function RequiredHeight(entries: seq<Entry>, summaryWidth: string -> real): int {
    Sizing(WrapSummaries(entries, summaryWidth), InnerPadding * (|entries| - 1))
  }

  /** The top of the first card: the margin above a stack of height
      `requiredHeight` is the margin below it or one more. */
  function Top(requiredHeight: int): (top: int)
    ensures 0 <= top - (Height - (top + requiredHeight)) <= 1
  {
    FloorDiv(Height, 2) - FloorDiv(requiredHeight, 2)
  }

  // ---------------------------------------------------------------------
  // Second pass: placing the cards

  /** The card of `entry`, whose summary wraps to `lines`, with its top at `y`. */
  function CardAt(entry: Entry, lines: seq<string>, y: int, titleWidth: string -> real): Card {
    var dayBoxHeight := DayBoxHeight(|lines|);
    var summaryBoxHeight := SummaryBoxHeight(|lines|);
    Card(
      Rect(OuterPadding, y, Width - OuterPadding, y + dayBoxHeight),
      TitleRect(OuterPadding + InnerPadding, y + InnerPadding,
                (OuterPadding + 3 * InnerPadding) as real + titleWidth(entry.title), y + 5 * InnerPadding),
      Rect(OuterPadding + InnerPadding * 3, y + 6 * InnerPadding,
           Width - OuterPadding - InnerPadding * 3, y + 6 * InnerPadding + summaryBoxHeight),
      Origin(OuterPadding + 2 * InnerPadding, y + InnerPadding + 4 * SupersamplingScale),
      entry.title,
      Origin(OuterPadding + 4 * InnerPadding, y + 6 * InnerPadding + 4 * SupersamplingScale),
      Join(lines))
  }

  /** How a card's pieces sit inside it: the title background spans the
      first band below the card's top, the summary background starts one
      padding below it, is inset by three paddings on both sides and ends
      one padding above the card's bottom; each text starts inside its
      background. */
  predicate Nested(c: Card) {
    && c.frame.top < c.frame.bottom
    && c.titleBox.left == c.frame.left + InnerPadding
    && c.titleBox.top == c.frame.top + InnerPadding
    && c.titleBox.bottom == c.frame.top + 5 * InnerPadding
    && c.summaryBox.top == c.titleBox.bottom + InnerPadding
    && c.summaryBox.bottom == c.frame.bottom - InnerPadding
    && c.summaryBox.top < c.summaryBox.bottom
    && c.summaryBox.left == c.frame.left + 3 * InnerPadding
    && c.summaryBox.right == c.frame.right - 3 * InnerPadding
    && c.titleOrigin.x == c.titleBox.left + InnerPadding
    && c.titleBox.top < c.titleOrigin.y < c.titleBox.bottom
    && c.summaryOrigin.x == c.summaryBox.left + InnerPadding
    && c.summaryBox.top < c.summaryOrigin.y < c.summaryBox.bottom
  }

  /** The placement loop from `y` on. */
  function Place(entries: seq<Entry>, wrapped: seq<seq<string>>, y: int, titleWidth: string -> real)
    : (cards: seq<Card>)
    requires |wrapped| == |entries| && AllWrapped(wrapped)
    ensures |cards| == |entries|
    decreases |entries|
  {
    if |entries| == 0 then []
    else
      var card := CardAt(entries[0], wrapped[0], y, titleWidth);
      [card] + Place(entries[1..], wrapped[1..], card.frame.bottom + InnerPadding, titleWidth)
  }

  /** One step of the placement loop: the first card is `DayBoxHeight` tall
      and the rest start one padding below it. */
  lemma PlaceFirst(entries: seq<Entry>, wrapped: seq<seq<string>>, y: int, titleWidth: string -> real)
    requires |wrapped| == |entries| && AllWrapped(wrapped) && |entries| > 0
    ensures var cards := Place(entries, wrapped, y, titleWidth);
      var next := y + DayBoxHeight(|wrapped[0]|) + InnerPadding;
      && cards[0] == CardAt(entries[0], wrapped[0], y, titleWidth)
      && cards[0].frame.bottom == y + DayBoxHeight(|wrapped[0]|)
      && cards[1..] == Place(entries[1..], wrapped[1..], next, titleWidth)
  {
  }

  /** `card` is nested and carries `entry`'s title and the summary wrapped to `lines`. */
  predicate DrawnAs(card: Card, entry: Entry, lines: seq<string>) {
    Nested(card) && card.title == entry.title && card.summary == Join(lines)
  }

  lemma CardAtNested(entry: Entry, lines: seq<string>, y: int, titleWidth: string -> real)
    requires |lines| >= 1
    ensures DrawnAs(CardAt(entry, lines, y, titleWidth), entry, lines)
  {
    BoxHeights(|lines|);
  }

  /** The card is seven paddings taller than its summary background. */
  lemma BoxHeights(lineCount: int)
    requires lineCount >= 1
    ensures DayBoxHeight(lineCount) == SummaryBoxHeight(lineCount) + 7 * InnerPadding
    ensures SummaryBoxHeight(lineCount) >= 3 * InnerPadding
  {
    assert InnerPadding == 32 && SupersamplingScale == 2;
  }

  /** Each card is nested and carries its entry's title and wrapped summary. */
  lemma {:induction false} PlaceNested(entries: seq<Entry>, wrapped: seq<seq<string>>, y: int, titleWidth: string -> real)
    requires |wrapped| == |entries| && AllWrapped(wrapped)
    ensures var cards := Place(entries, wrapped, y, titleWidth);
      forall i :: 0 <= i < |cards| ==> DrawnAs(cards[i], entries[i], wrapped[i])
    decreases |entries|
  {
    if |entries| > 0 {
      var next := y + DayBoxHeight(|wrapped[0]|) + InnerPadding;
      PlaceFirst(entries, wrapped, y, titleWidth);
      CardAtNested(entries[0], wrapped[0], y, titleWidth);
      PlaceNested(entries[1..], wrapped[1..], next, titleWidth);
      DrawnFromFirst(Place(entries, wrapped, y, titleWidth), entries, wrapped);
    }
  }

  lemma DrawnFromFirst(cards: seq<Card>, entries: seq<Entry>, wrapped: seq<seq<string>>)
    requires |cards| == |entries| == |wrapped| > 0
    requires DrawnAs(cards[0], entries[0], wrapped[0])
    requires forall i :: 0 <= i < |cards| - 1 ==> DrawnAs(cards[1..][i], entries[1..][i], wrapped[1..][i])
    ensures forall i :: 0 <= i < |cards| ==> DrawnAs(cards[i], entries[i], wrapped[i])
  {
    forall i | 1 <= i < |cards|
      ensures DrawnAs(cards[i], entries[i], wrapped[i])
    {
      assert cards[1..][i - 1] == cards[i];
      assert entries[1..][i - 1] == entries[i] && wrapped[1..][i - 1] == wrapped[i];
    }
  }

  /** The cards start at `y` and follow each other in entry order, each one
      padding below the previous one's bottom. */
  lemma {:induction false} PlaceStacks(entries: seq<Entry>, wrapped: seq<seq<string>>, y: int, titleWidth: string -> real)
    requires |wrapped| == |entries| && AllWrapped(wrapped)
    ensures var cards := Place(entries, wrapped, y, titleWidth);
      && (|cards| > 0 ==> cards[0].frame.top == y)
      && forall i :: 0 <= i < |cards| - 1 ==> cards[i + 1].frame.top == cards[i].frame.bottom + InnerPadding
    decreases |entries|
  {
    if |entries| > 0 {
      var next := y + DayBoxHeight(|wrapped[0]|) + InnerPadding;
      PlaceFirst(entries, wrapped, y, titleWidth);
      PlaceStacks(entries[1..], wrapped[1..], next, titleWidth);
      var cards := Place(entries, wrapped, y, titleWidth);
      var rest := Place(entries[1..], wrapped[1..], next, titleWidth);
      assert forall i :: 1 <= i < |cards| ==> cards[i] == rest[i - 1];
    }
  }

  /** The layout `create_image` draws for `entries`: `titleWidth` and
      `summaryWidth` measure text in the title and summary fonts. */
  function CreateImage(entries: seq<Entry>, titleWidth: string -> real, summaryWidth: string -> real)
    : (cards: seq<Card>)
    ensures |cards| == |entries|
  {
    Place(entries, WrapSummaries(entries, summaryWidth), Top(RequiredHeight(entries, summaryWidth)), titleWidth)
  }

  // ---------------------------------------------------------------------
  // The two passes agree

  /** The heights of the placed cards, added up. */
  function TotalCardHeight(cards: seq<Card>): int {
    if |cards| == 0 then 0 else (cards[0].frame.bottom - cards[0].frame.top) + TotalCardHeight(cards[1..])
  }

  lemma {:induction false} SizingAddsCardHeights(entries: seq<Entry>, wrapped: seq<seq<string>>, y: int,
                                                 titleWidth: string -> real, acc: int)
    requires |wrapped| == |entries| && AllWrapped(wrapped)
    ensures Sizing(wrapped, acc) == acc + TotalCardHeight(Place(entries, wrapped, y, titleWidth))
    decreases |entries|
  {
    if |entries| > 0 {
      var lineCount := |wrapped[0]|;
      PlaceFirst(entries, wrapped, y, titleWidth);
      SizingAddsCardHeights(entries[1..], wrapped[1..], y + DayBoxHeight(lineCount) + InnerPadding, titleWidth,
                            acc + DayBoxHeight(lineCount));
    }
  }

  /** The first pass measures what the second pass draws: the required
      height is the cards' heights plus one padding between each two. */
  lemma RequiredHeightIsStack(entries: seq<Entry>, titleWidth: string -> real, summaryWidth: string -> real)
    ensures RequiredHeight(entries, summaryWidth)
         == TotalCardHeight(CreateImage(entries, titleWidth, summaryWidth)) + InnerPadding * (|entries| - 1)
  {
    SizingAddsCardHeights(entries, WrapSummaries(entries, summaryWidth), Top(RequiredHeight(entries, summaryWidth)),
                          titleWidth, InnerPadding * (|entries| - 1));
  }

  lemma {:induction false} PlaceBottom(entries: seq<Entry>, wrapped: seq<seq<string>>, y: int, titleWidth: string -> real)
    requires |wrapped| == |entries| && AllWrapped(wrapped) && |entries| > 0
    ensures var cards := Place(entries, wrapped, y, titleWidth);
      cards[|cards| - 1].frame.bottom == y + TotalCardHeight(cards) + InnerPadding * (|cards| - 1)
    decreases |entries|
  {
    PlaceFirst(entries, wrapped, y, titleWidth);
    if |entries| > 1 {
      PlaceBottom(entries[1..], wrapped[1..], y + DayBoxHeight(|wrapped[0]|) + InnerPadding, titleWidth);
    }
  }

  /** The stack ends exactly where the first pass said: the last card's
      bottom is the first card's top plus the required height. */
  lemma StackEndsAtRequiredHeight(entries: seq<Entry>, titleWidth: string -> real, summaryWidth: string -> real)
    requires |entries| > 0
    ensures var cards := CreateImage(entries, titleWidth, summaryWidth);
      var required := RequiredHeight(entries, summaryWidth);
      && cards[0].frame.top == Top(required)
      && cards[|cards| - 1].frame.bottom == Top(required) + required
  {
    RequiredHeightIsStack(entries, titleWidth, summaryWidth);
    PlaceBottom(entries, WrapSummaries(entries, summaryWidth), Top(RequiredHeight(entries, summaryWidth)), titleWidth);
  }

  // ---------------------------------------------------------------------
  // Centring

  lemma {:induction false} SizingEven(wrapped: seq<seq<string>>, acc: int)
    requires acc % 2 == 0
    ensures Sizing(wrapped, acc) % 2 == 0
    decreases |wrapped|
  {
    if |wrapped| > 0 {
      var lineCount := |wrapped[0]|;
      var next := acc + InnerPadding * (8 + 2 * lineCount) + (lineCount - 1) * 4 * SupersamplingScale;
      assert next == 2 * (acc / 2 + 16 * (8 + 2 * lineCount) + (lineCount - 1) * 4);
      SizingEven(wrapped[1..], next);
    }
  }

  /** Every height in the stack is even, so the stack is centred exactly. */
  lemma CentredExactly(entries: seq<Entry>, summaryWidth: string -> real)
    ensures var required := RequiredHeight(entries, summaryWidth);
      Top(required) == Height - (Top(required) + required)
  {
    var n := |entries|;
    assert InnerPadding * (n - 1) == 2 * (16 * (n - 1));
    SizingEven(WrapSummaries(entries, summaryWidth), InnerPadding * (n - 1));
    EvenCentred(RequiredHeight(entries, summaryWidth));
  }

  lemma EvenCentred(required: int)
    requires required % 2 == 0
    ensures Top(required) == Height - (Top(required) + required)
  {
    assert FloorDiv(required, 2) * 2 == required;
  }

  /** A stack no taller than the canvas lies within it; a taller one is
      not scaled down, it runs over both edges. */
  lemma FitsWhenShortEnough(required: int)
    requires 0 <= required <= Height
    ensures 0 <= Top(required) && Top(required) + required <= Height
  {
  }
}

=== FILE: char_wrap.dfy ===
/** The character-by-character greedy line breaker of the third renderer.
    The text is scanned once; a word is collected until a plain space flushes
    it onto the current line, and after every character the current line
    plus the pending word is measured against the width limit. An embedded
    line break always closes the current line. */
module CharWrap {
  import opened Text

  /** The scanner's state: the lines so far (never empty) and the pending word. */
  datatype Scan = Scan(lines: seq<string>, word: string)

  function Start(): Scan {
    Scan([""], "")
  }

  /** `lines` with its last line replaced by `x`. */
  function SetLast(lines: seq<string>, x: string): seq<string>
    requires |lines| > 0
  {
    lines[..|lines| - 1] + [x]
  }

  /** One iteration of the scanning loop, on character `c`. */
  function Step(st: Scan, c: char, width: string -> real, maxWidth: real): (r: Scan)
    requires |st.lines| > 0
    ensures |st.lines| <= |r.lines| <= |st.lines| + 1
    ensures r.lines[..|st.lines| - 1] == st.lines[..|st.lines| - 1]
  {
    if c == '\n' then
      Scan(SetLast(st.lines, st.lines[|st.lines| - 1] + " " + st.word) + [""], "")
    else
      var word := st.word + [c];
      var lines := if width(st.lines[|st.lines| - 1] + " " + word) > maxWidth then st.lines + [""] else st.lines;
      if c == ' ' then Scan(SetLast(lines, lines[|lines| - 1] + " " + word), "")
      else Scan(lines, word)
  }

  /** The loop run over all of `s`, left to right. */
  function Run(s: string, width: string -> real, maxWidth: real): (r: Scan)
    ensures 1 + Count(s, '\n') <= |r.lines| <= 1 + |s|
    decreases |s|
  {
    if |s| == 0 then Start()
    else Step(Run(s[..|s| - 1], width, maxWidth), s[|s| - 1], width, maxWidth)
  }

  /** Every line, stripped. */
  function StripAll(lines: seq<string>): (r: seq<string>)
    ensures |r| == |lines|
    ensures forall k :: 0 <= k < |r| ==> r[k] == Strip(lines[k])
    decreases |lines|
  {
    if |lines| == 0 then [] else StripAll(lines[..|lines| - 1]) + [Strip(lines[|lines| - 1])]
  }

  /** `wrap_text(text, font, max_width)`: `width` is the font's `getlength`. */
  function WrapText(text: string, width: string -> real, maxWidth: real): (r: seq<string>)
    ensures |r| >= 1
  {
    StripAll(Run(Strip(text) + " ", width, maxWidth).lines)
  }

  /** Every returned line is stripped. */
  lemma WrapLinesStripped(text: string, width: string -> real, maxWidth: real)
    ensures forall k :: 0 <= k < |WrapText(text, width, maxWidth)| ==>
      IsStripped(WrapText(text, width, maxWidth)[k])
  {
    var lines := Run(Strip(text) + " ", width, maxWidth).lines;
    forall k | 0 <= k < |lines|
      ensures IsStripped(StripAll(lines)[k])
    {
      StripSpec(lines[k]);
    }
  }

  /** The lines read one after the other. */
  function Concat(lines: seq<string>): string {
    if |lines| == 0 then "" else Concat(lines[..|lines| - 1]) + lines[|lines| - 1]
  }

  lemma ConcatAppend(lines: seq<string>, x: string)
    ensures Concat(lines + [x]) == Concat(lines) + x
  {
    assert (lines + [x])[..|lines + [x]| - 1] == lines;
  }

  // ---------------------------------------------------------------------
  // Content preservation

  lemma AddEmptyLine(lines: seq<string>)
    ensures Concat(lines + [""]) == Concat(lines)
  {
    ConcatAppend(lines, "");
  }

  /** Putting a space and `w` at the end of the last line adds the
      non-whitespace of `w` at the end. */
  lemma AppendToLast(lines: seq<string>, w: string)
    requires |lines| > 0
    ensures NonSpace(Concat(SetLast(lines, lines[|lines| - 1] + " " + w)))
         == NonSpace(Concat(lines)) + NonSpace(w)
  {
    var init := lines[..|lines| - 1];
    var last := lines[|lines| - 1];
    assert lines == init + [last];
    ConcatAppend(init, last);
    ConcatAppend(init, last + " " + w);
    ConcatNonSpace(Concat(init), last, w);
  }

  lemma ConcatNonSpace(before: string, last: string, w: string)
    ensures NonSpace(before + (last + " " + w)) == NonSpace(before + last) + NonSpace(w)
  {
    NonSpaceAppend(before, last + " " + w);
    NonSpaceAppend(before, last);
    NonSpaceAroundSpace(last, w);
  }

  lemma BreakKeepsNonSpace(st: Scan, width: string -> real, maxWidth: real)
    requires |st.lines| > 0
    ensures var r := Step(st, '\n', width, maxWidth);
      NonSpace(Concat(r.lines)) + NonSpace(r.word)
      == NonSpace(Concat(st.lines)) + NonSpace(st.word)
  {
    AppendToLast(st.lines, st.word);
    AddEmptyLine(SetLast(st.lines, st.lines[|st.lines| - 1] + " " + st.word));
  }

  lemma CharKeepsNonSpace(st: Scan, c: char, width: string -> real, maxWidth: real)
    requires |st.lines| > 0 && c != '\n'
    ensures var r := Step(st, c, width, maxWidth);
      NonSpace(Concat(r.lines)) + NonSpace(r.word)
      == NonSpace(Concat(st.lines)) + NonSpace(st.word + [c])
  {
    var word := st.word + [c];
    AddEmptyLine(st.lines);
    var lines := if width(st.lines[|st.lines| - 1] + " " + word) > maxWidth then st.lines + [""] else st.lines;
    if c == ' ' {
      AppendToLast(lines, word);
    }
  }

  /** One step moves the non-whitespace of `c` into the lines or the word. */
  lemma StepKeepsNonSpace(st: Scan, c: char, width: string -> real, maxWidth: real)
    requires |st.lines| > 0
    ensures var r := Step(st, c, width, maxWidth);
      NonSpace(Concat(r.lines)) + NonSpace(r.word)
      == NonSpace(Concat(st.lines)) + NonSpace(st.word) + NonSpace([c])
  {
    if c == '\n' {
      BreakKeepsNonSpace(st, width, maxWidth);
      assert NonSpace([c]) == [] by {
        NonSpaceOfSpace([c]);
      }
    } else {
      CharKeepsNonSpace(st, c, width, maxWidth);
      NonSpaceAppend(st.word, [c]);
    }
  }

  lemma RunStepKeepsNonSpace(s: string, width: string -> real, maxWidth: real)
    requires |s| > 0
    ensures var st := Run(s, width, maxWidth);
      var prev := Run(s[..|s| - 1], width, maxWidth);
      NonSpace(Concat(st.lines)) + NonSpace(st.word)
      == NonSpace(Concat(prev.lines)) + NonSpace(prev.word) + NonSpace([s[|s| - 1]])
  {
    StepKeepsNonSpace(Run(s[..|s| - 1], width, maxWidth), s[|s| - 1], width, maxWidth);
  }

  /** What the scan has consumed is, up to whitespace, the lines so far
      followed by the pending word. */
  lemma {:induction false} RunKeepsNonSpace(s: string, width: string -> real, maxWidth: real)
    ensures var st := Run(s, width, maxWidth);
      NonSpace(Concat(st.lines)) + NonSpace(st.word) == NonSpace(s)
    decreases |s|
  {
    if |s| > 0 {
      RunKeepsNonSpace(s[..|s| - 1], width, maxWidth);
      RunStepKeepsNonSpace(s, width, maxWidth);
      NonSpaceOfLast(s);
    }
  }

  lemma {:induction false} StripAllKeepsNonSpace(lines: seq<string>)
    ensures NonSpace(Concat(StripAll(lines))) == NonSpace(Concat(lines))
    decreases |lines|
  {
    if |lines| > 0 {
      var init := lines[..|lines| - 1];
      StripAllKeepsNonSpace(init);
      var r := StripAll(lines);
      assert r[..|r| - 1] == StripAll(init);
      assert r[|r| - 1] == Strip(lines[|lines| - 1]);
      NonSpaceAppend(Concat(StripAll(init)), Strip(lines[|lines| - 1]));
      NonSpaceAppend(Concat(init), lines[|lines| - 1]);
      StripKeepsNonSpace(lines[|lines| - 1]);
    }
  }

  /** The trailing space flushes the last pending word. */
  lemma RunFlushesAtSpace(s: string, width: string -> real, maxWidth: real)
    ensures Run(s + " ", width, maxWidth).word == ""
  {
    assert (s + " ")[..|s + " "| - 1] == s;
  }

  lemma ScannedNonSpace(text: string)
    ensures NonSpace(Strip(text) + " ") == NonSpace(text)
  {
    NonSpaceAppend(Strip(text), " ");
    StripKeepsNonSpace(text);
  }

  /** Nothing is dropped or reordered: read across the lines, the output has
      exactly the non-whitespace characters of the input. */
  lemma WrapKeepsNonSpace(text: string, width: string -> real, maxWidth: real)
    ensures NonSpace(Concat(WrapText(text, width, maxWidth))) == NonSpace(text)
  {
    RunKeepsNonSpace(Strip(text) + " ", width, maxWidth);
    RunFlushesAtSpace(Strip(text), width, maxWidth);
    StripAllKeepsNonSpace(Run(Strip(text) + " ", width, maxWidth).lines);
    ScannedNonSpace(text);
  }

  // ---------------------------------------------------------------------
  // Line counts

  /** Each explicit line break in the stripped text starts a line, and each
      scanned character (the stripped text plus the trailing space) adds at
      most one. */
  lemma WrapLineCount(text: string, width: string -> real, maxWidth: real)
    ensures var n := |WrapText(text, width, maxWidth)|;
      1 + Count(Strip(text), '\n') <= n <= |Strip(text)| + 2
  {
    var s := Strip(text) + " ";
    assert s[..|s| - 1] == Strip(text);
  }

  // ---------------------------------------------------------------------
  // Placement of a flushed word

  /** At a plain space the pending word (with that space) goes onto the
      current line exactly when the current line, a space and the word fit;
      otherwise a new line is opened for it and the earlier lines are left
      as they were. Either way the pending word is emptied. */
  lemma SpaceFlush(st: Scan, width: string -> real, maxWidth: real)
    requires |st.lines| > 0
    ensures var r := Step(st, ' ', width, maxWidth);
      var w := st.word + " ";
      var line := st.lines[|st.lines| - 1] + " " + w;
      && r.word == ""
      && (width(line) <= maxWidth <==> |r.lines| == |st.lines|)
      && (width(line) <= maxWidth ==> r.lines == SetLast(st.lines, line))
      && (width(line) > maxWidth ==> r.lines == st.lines + [" " + w])
  {
    assert "" + " " + (st.word + " ") == " " + (st.word + " ");
    assert (st.lines + [""])[..|st.lines|] == st.lines;
  }

  /** The width check runs after every character, not once per word: while
      a word is still being read, every character that takes the current
      line plus the word past the limit opens one more (empty) line. A word
      wider than the limit therefore leaves a run of empty lines behind it
      instead of simply standing alone. */
  lemma OverflowOpensLine(st: Scan, c: char, width: string -> real, maxWidth: real)
    requires |st.lines| > 0 && c != '\n' && c != ' '
    requires width(st.lines[|st.lines| - 1] + " " + st.word + [c]) > maxWidth
    ensures Step(st, c, width, maxWidth) == Scan(st.lines + [""], st.word + [c])
  {
    assert st.lines[|st.lines| - 1] + " " + (st.word + [c])
        == st.lines[|st.lines| - 1] + " " + st.word + [c];
  }
}

=== FILE: menu.dfy ===
/** What the three renderers share: a menu entry as read from the feed; and,
    for the two older renderers, the entry-count-driven font sizes, the text
    origins and the wrapping of every title and summary. */
module Menu {
  import opened Text
  import WordWrap

  /** One day of the menu: its title (for example "Måndag 12 okt") and its
      summary, the dishes separated by line breaks. The publication date the
      newest renderer also carries is never used by the layout and is not
      kept. */
  datatype Entry = Entry(title: string, summary: string)

  /** A text origin of the older renderers: real, because the summary is
      indented by a measured width and lowered by one and a half font sizes. */
  datatype Point = Point(x: real, y: real)

  /** Where one entry's texts are drawn, and what is drawn there. */
  datatype Placement = Placement(titleOrigin: Point, title: string, summaryOrigin: Point, summary: string)

  /** The title and summary font sizes for a menu of `count` entries: both
      start at 40 and 32 for five entries and move by 4 per entry. */
  datatype FontSizes = FontSizes(title: int, summary: int)

  function SizesFor(count: nat): (f: FontSizes)
    ensures f.title == f.summary + 8
    ensures f.summary == 52 - 4 * count
  {
    FontSizes(40 + 4 * (5 - count), 32 + 4 * (5 - count))
  }

  /** One more entry makes both fonts exactly 4 smaller. */
  lemma SizesShrinkPerEntry(count: nat)
    ensures SizesFor(count + 1).title == SizesFor(count).title - 4
    ensures SizesFor(count + 1).summary == SizesFor(count).summary - 4
  {
  }

  /** The summary is drawn `indent` to the right of its title and one and a
      half summary font sizes below it. */
  function SummaryOrigin(titleOrigin: Point, indent: real, summarySize: int): Point {
    Point(titleOrigin.x + indent, titleOrigin.y + summarySize as real * 1.5)
  }

  // ---------------------------------------------------------------------
  // Wrapping in the two older renderers

  /** `len(text.split("\n"))`: the number of lines a wrapped text is drawn as. */
  function LineCount(text: string): (n: int)
    ensures n >= 1
  {
    |SplitLines(text)|
  }

  /** Each entry's summary, wrapped. Both passes wrap every summary with the
      same font and line length, so they see the same text. */
  function WrapSummaries(entries: seq<Entry>, summaryWidth: string -> real, lineLength: real)
    : (texts: seq<string>)
    ensures |texts| == |entries|
  {
    seq(|entries|, i requires 0 <= i < |entries| => WordWrap.WrapText(entries[i].summary, summaryWidth, lineLength))
  }

  /** Each entry's title, wrapped to `lineLength`. */
  function WrapTitles(entries: seq<Entry>, titleWidth: string -> real, lineLength: real): (titles: seq<string>)
    ensures |titles| == |entries|
  {
    seq(|entries|, i requires 0 <= i < |entries| => WordWrap.WrapText(entries[i].title, titleWidth, lineLength))
  }

  /** Every summary is drawn as the lines the word wrapper built for it. */
  lemma SummaryLineCounts(entries: seq<Entry>, summaryWidth: string -> real, lineLength: real)
    ensures var texts := WrapSummaries(entries, summaryWidth, lineLength);
      forall i :: 0 <= i < |entries| ==>
        LineCount(texts[i]) == |WordWrap.Lines(Split(entries[i].summary), summaryWidth, lineLength)|
  {
    forall i | 0 <= i < |entries|
      ensures LineCount(WordWrap.WrapText(entries[i].summary, summaryWidth, lineLength))
           == |WordWrap.Lines(Split(entries[i].summary), summaryWidth, lineLength)|
    {
      WordWrap.WrapLines(entries[i].summary, summaryWidth, lineLength);
    }
  }
}

=== FILE: menu_v1.dfy ===
/** The layout and the Monday test of the first renderer. The layout is the
    second renderer's with a wider padding and integer offsets: the sizing
    pass starts from twice the padding and counts each entry exactly as far
    as the placement pass moves, so the text block is centred. */
module MenuV1 {
  import opened Text
  import WordWrap
  import opened Menu
  import MenuV2

  const ImageSize := 1080
  const Padding := 135

  /** Titles are wrapped to the canvas width less the padding on both sides. */
  const TitleLineLength: real := (ImageSize - 2 * Padding) as real

  /** Summaries are wrapped to the title width less their indent. */
  function SummaryLineLength(indent: real): real {
    TitleLineLength - indent
  }

  /** The height of an entry whose summary has `lines` lines, in both
      passes: two title sizes and one summary size per line. */
  function EntryHeight(sizes: FontSizes, lines: int): int {
    sizes.title * 2 + sizes.summary * lines
  }

  // ---------------------------------------------------------------------
  // First pass

  /** The sizing loop over the wrapped summaries with `acc` the total so far. */
  function Sizing(sizes: FontSizes, texts: seq<string>, acc: int): int
    decreases |texts|
  {
    if |texts| == 0 then acc
    else Sizing(sizes, texts[1..], acc + EntryHeight(sizes, LineCount(texts[0])))
  }

  /** The sizing total: twice the padding, then every entry. */
  function Total(sizes: FontSizes, texts: seq<string>): int {
    Sizing(sizes, texts, Padding * 2)
  }

  /** The entries' heights, added up from the last one back. */
  function HeightSum(sizes: FontSizes, texts: seq<string>): int
    decreases |texts|
  {
    if |texts| == 0 then 0 else EntryHeight(sizes, LineCount(texts[0])) + HeightSum(sizes, texts[1..])
  }

  lemma {:induction false} SizingIsSum(sizes: FontSizes, texts: seq<string>, acc: int)
    ensures Sizing(sizes, texts, acc) == acc + HeightSum(sizes, texts)
    decreases |texts|
  {
    if |texts| > 0 {
      SizingIsSum(sizes, texts[1..], acc + EntryHeight(sizes, LineCount(texts[0])));
    }
  }

  /** The sizing total is twice the padding plus every entry's height. */
  lemma TotalIsSum(sizes: FontSizes, texts: seq<string>)
    ensures Total(sizes, texts) == Padding * 2 + HeightSum(sizes, texts)
  {
    SizingIsSum(sizes, texts, Padding * 2);
  }

  /** `(1080 - offset) // 2` on integers. */
  function StartOffset(total: int): (offset: int)
    ensures 2 * offset <= ImageSize - total <= 2 * offset + 1
  {
    (ImageSize - total) / 2
  }

  // ---------------------------------------------------------------------
  // Second pass

  /** The placements drawn and the offset the loop ends with. */
  datatype Pass = Pass(placements: seq<Placement>, offset: int)

  /** The placement loop from `offset` on, over the wrapped titles and
      summaries. */
  function PlaceFrom(titles: seq<string>, texts: seq<string>, sizes: FontSizes, indent: real, offset: int)
    : (p: Pass)
    requires |texts| == |titles|
    ensures |p.placements| == |titles|
    decreases |titles|
  {
    if |titles| == 0 then Pass([], offset)
    else
      var titleOrigin := Point(Padding as real, (Padding + offset) as real);
      var placement := Placement(titleOrigin, titles[0], SummaryOrigin(titleOrigin, indent, sizes.summary), texts[0]);
      var rest := PlaceFrom(titles[1..], texts[1..], sizes, indent, offset + EntryHeight(sizes, LineCount(texts[0])));
      Pass([placement] + rest.placements, rest.offset)
  }

  /** The last offset of `generate_image`'s placement loop, with what it drew. */
  function DrawPass(entries: seq<Entry>, titleWidth: string -> real, summaryWidth: string -> real): (p: Pass)
    ensures |p.placements| == |entries|
  {
    var sizes := SizesFor(|entries|);
    var indent := summaryWidth("    ");
    var texts := WrapSummaries(entries, summaryWidth, SummaryLineLength(indent));
    PlaceFrom(WrapTitles(entries, titleWidth, TitleLineLength), texts, sizes, indent, StartOffset(Total(sizes, texts)))
  }

  /** `generate_image` reduced to what it draws where. */
  function GenerateImage(entries: seq<Entry>, titleWidth: string -> real, summaryWidth: string -> real)
    : (placements: seq<Placement>)
    ensures |placements| == |entries|
  {
    DrawPass(entries, titleWidth, summaryWidth).placements
  }

  // ---------------------------------------------------------------------
  // The two passes

  /** One step of the placement loop. */
  lemma PlaceFromFirst(titles: seq<string>, texts: seq<string>, sizes: FontSizes, indent: real, offset: int)
    requires |texts| == |titles| && |titles| > 0
    ensures var p := PlaceFrom(titles, texts, sizes, indent, offset);
      var rest := PlaceFrom(titles[1..], texts[1..], sizes, indent, offset + EntryHeight(sizes, LineCount(texts[0])));
      var titleOrigin := Point(Padding as real, (Padding + offset) as real);
      && p.offset == rest.offset
      && p.placements[1..] == rest.placements
      && p.placements[0] == Placement(titleOrigin, titles[0], SummaryOrigin(titleOrigin, indent, sizes.summary), texts[0])
  {
    var p := PlaceFrom(titles, texts, sizes, indent, offset);
    assert p.placements[1..] == (p.placements[..1] + p.placements[1..])[1..];
  }

  /** The placement loop moves exactly as far as the sizing loop counted. */
  lemma {:induction false} PlacementAdvance(titles: seq<string>, texts: seq<string>, sizes: FontSizes, indent: real,
                                            offset: int, acc: int)
    requires |texts| == |titles|
    ensures PlaceFrom(titles, texts, sizes, indent, offset).offset - offset == Sizing(sizes, texts, acc) - acc
    decreases |titles|
  {
    if |titles| > 0 {
      var step := EntryHeight(sizes, LineCount(texts[0]));
      PlaceFromFirst(titles, texts, sizes, indent, offset);
      PlacementAdvance(titles[1..], texts[1..], sizes, indent, offset + step, acc + step);
    }
  }

  /** Each entry's title at the padding, its summary indented by `indent`
      and one and a half summary sizes lower. */
  lemma {:induction false} PlacementsIndented(titles: seq<string>, texts: seq<string>, sizes: FontSizes, indent: real,
                                              offset: int)
    requires |texts| == |titles|
    ensures var ps := PlaceFrom(titles, texts, sizes, indent, offset).placements;
      forall i :: 0 <= i < |ps| ==>
        && ps[i].titleOrigin.x == Padding as real
        && ps[i].title == titles[i]
        && ps[i].summary == texts[i]
        && ps[i].summaryOrigin.x - ps[i].titleOrigin.x == indent
        && ps[i].summaryOrigin.y - ps[i].titleOrigin.y == 1.5 * sizes.summary as real
    decreases |titles|
  {
    if |titles| > 0 {
      PlaceFromFirst(titles, texts, sizes, indent, offset);
      PlacementsIndented(titles[1..], texts[1..], sizes, indent, offset + EntryHeight(sizes, LineCount(texts[0])));
    }
  }

  /** The first title is `offset` below the padding; each next title is the
      previous entry's height further down. */
  lemma {:induction false} PlacementsStack(titles: seq<string>, texts: seq<string>, sizes: FontSizes, indent: real,
                                           offset: int)
    requires |texts| == |titles|
    ensures var ps := PlaceFrom(titles, texts, sizes, indent, offset).placements;
      && (|ps| > 0 ==> ps[0].titleOrigin.y == (Padding + offset) as real)
      && forall i :: 0 <= i < |ps| - 1 ==>
           ps[i + 1].titleOrigin.y == ps[i].titleOrigin.y + EntryHeight(sizes, LineCount(texts[i])) as real
    decreases |titles|
  {
    if |titles| > 0 {
      PlaceFromFirst(titles, texts, sizes, indent, offset);
      PlacementsStack(titles[1..], texts[1..], sizes, indent, offset + EntryHeight(sizes, LineCount(texts[0])));
    }
  }

  /** What `generate_image` draws for each entry: its wrapped title at the
      padding, the first one the start offset below it, its wrapped summary
      indented and lowered, and each next title one entry height lower. */
  lemma GeneratedPlacements(entries: seq<Entry>, titleWidth: string -> real, summaryWidth: string -> real)
    ensures var ps := GenerateImage(entries, titleWidth, summaryWidth);
      var sizes := SizesFor(|entries|);
      var indent := summaryWidth("    ");
      var texts := WrapSummaries(entries, summaryWidth, SummaryLineLength(indent));
      && (|ps| > 0 ==> ps[0].titleOrigin == Point(Padding as real, (Padding + StartOffset(Total(sizes, texts))) as real))
      && (forall i :: 0 <= i < |ps| - 1 ==>
           ps[i + 1].titleOrigin.y == ps[i].titleOrigin.y + EntryHeight(sizes, LineCount(texts[i])) as real)
      && forall i :: 0 <= i < |ps| ==>
        && ps[i].title == WordWrap.WrapText(entries[i].title, titleWidth, TitleLineLength)
        && ps[i].summary == WordWrap.WrapText(entries[i].summary, summaryWidth, SummaryLineLength(indent))
        && ps[i].summaryOrigin.x - ps[i].titleOrigin.x == indent
        && ps[i].summaryOrigin.y - ps[i].titleOrigin.y == 1.5 * sizes.summary as real
  {
    var sizes := SizesFor(|entries|);
    var indent := summaryWidth("    ");
    var texts := WrapSummaries(entries, summaryWidth, SummaryLineLength(indent));
    var offset := StartOffset(Total(sizes, texts));
    PlacementsIndented(WrapTitles(entries, titleWidth, TitleLineLength), texts, sizes, indent, offset);
    PlacementsStack(WrapTitles(entries, titleWidth, TitleLineLength), texts, sizes, indent, offset);
  }

  /** The text block is centred: from the first title down to where a next
      title would go, the margin below is the margin above or one more. */
  lemma StackCentred(entries: seq<Entry>, titleWidth: string -> real, summaryWidth: string -> real)
    ensures var sizes := SizesFor(|entries|);
      var texts := WrapSummaries(entries, summaryWidth, SummaryLineLength(summaryWidth("    ")));
      var top := Padding + StartOffset(Total(sizes, texts));
      var bottom := Padding + DrawPass(entries, titleWidth, summaryWidth).offset;
      0 <= (ImageSize - bottom) - top <= 1
  {
    var sizes := SizesFor(|entries|);
    var indent := summaryWidth("    ");
    var texts := WrapSummaries(entries, summaryWidth, SummaryLineLength(indent));
    PlacementAdvance(WrapTitles(entries, titleWidth, TitleLineLength), texts, sizes, indent, StartOffset(Total(sizes, texts)), Padding * 2);
  }

  // ---------------------------------------------------------------------
  // The Monday test

  /** The four spellings of Monday the test compares against. */
  const MondayWords: seq<string> := ["M\U{E5}ndag", "m\U{E5}ndag", "Monday", "monday"]

  /** `any(word in [...] for word in today)` as written: iterating a string
      yields its characters, so every candidate is one character long and
      none of the six-letter spellings ever matches. */
  function IsMondayAsWritten(today: string): (r: bool)
    ensures !r
  {
    exists k :: 0 <= k < |today| && [today[k]] in MondayWords
  }

  /** The same test on the title's whitespace-separated words, as the second
      renderer does it. */
  predicate IsMondayByWord(today: string) {
    exists k :: 0 <= k < |Split(today)| && Split(today)[k] in MondayWords
  }

  /** An example Monday title is missed by the test as written... */
  lemma MondayTitleMissed()
    ensures !IsMondayAsWritten("M\U{E5}ndag 12 okt")
  {
  }

  /** The word test looks at the words on both sides of a whitespace
      character on their own. */
  lemma ByWordAtSpace(a: string, c: char, b: string)
    requires IsSpace(c)
    ensures IsMondayByWord(a + [c] + b) <==> IsMondayByWord(a) || IsMondayByWord(b)
  {
    SplitAtSpace(a, c, b);
    var sa, sb := Split(a), Split(b);
    if IsMondayByWord(a) {
      var k :| 0 <= k < |sa| && sa[k] in MondayWords;
      assert (sa + sb)[k] == sa[k];
    }
    if IsMondayByWord(b) {
      var k :| 0 <= k < |sb| && sb[k] in MondayWords;
      assert (sa + sb)[|sa| + k] == sb[k];
    }
  }

  /** A single word passes the word test exactly when it is one of the four spellings. */
  lemma ByWordOfWord(w: string)
    requires IsWord(w)
    ensures IsMondayByWord(w) <==> w in MondayWords
  {
    SplitWord(w);
    assert Split(w)[0] == w;
  }

  /** ...and found by the test on words. */
  lemma MondayTitleFound()
    ensures IsMondayByWord("M\U{E5}ndag 12 okt")
  {
    ByWordOfWord("M\U{E5}ndag");
    ByWordAtSpace("M\U{E5}ndag", ' ', "12 okt");
    assert "M\U{E5}ndag" + [' '] + "12 okt" == "M\U{E5}ndag 12 okt";
  }

  /** Whatever the word test recognises, the second renderer's test
      recognises too: all four spellings are Monday in any mix of cases. */
  lemma ByWordIsMonday(today: string)
    requires IsMondayByWord(today)
    ensures MenuV2.IsMonday(today)
  {
    var k :| 0 <= k < |Split(today)| && Split(today)[k] in MondayWords;
    MenuV2.MondaySpellingsLowered();
    assert MenuV2.IsMondayName(Split(today)[k]);
  }
}

=== FILE: menu_v2.dfy ===
/** The layout and the Monday test of the second renderer. Font sizes follow
    the entry count; a first pass adds up a height for every entry, the
    start offset halves what is left of the canvas, and a second pass draws
    each title with its summary indented below it. */
module MenuV2 {
  import opened Text
  import WordWrap
  import opened Menu

  const ImageWidth := 1080
  const ImageHeight := 1080
  const Padding := 96

  /** Titles are wrapped to the canvas width less the padding on both sides. */
  const TitleLineLength: real := (ImageWidth - 2 * Padding) as real

  /** Summaries are wrapped to the title width less their indent. */
  function SummaryLineLength(indent: real): real {
    TitleLineLength - indent
  }

  // ---------------------------------------------------------------------
  // First pass

  /** What the first pass counts for an entry whose summary has `lines`
      lines: two title sizes and one and a half summary sizes more than the
      summary's lines. */
  function EntryHeight(sizes: FontSizes, lines: int): real {
    (sizes.title * 2) as real + sizes.summary as real * (lines as real + 1.5)
  }

  /** The sizing loop over the wrapped summaries with `acc` the total so far. */
  function Sizing(sizes: FontSizes, texts: seq<string>, acc: real): real
    decreases |texts|
  {
    if |texts| == 0 then acc
    else Sizing(sizes, texts[1..], acc + EntryHeight(sizes, LineCount(texts[0])))
  }

  /** `(IMG_HEIGHT - offset) // 2` on a float: the half, rounded down. */
  function StartOffset(total: real): (offset: real)
    ensures offset == offset.Floor as real
    ensures 2.0 * offset <= ImageHeight as real - total < 2.0 * offset + 2.0
  {
    ((ImageHeight as real - total) / 2.0).Floor as real
  }

  // ---------------------------------------------------------------------
  // Second pass

  /** The placements drawn and the offset the loop ends with. */
  datatype Pass = Pass(placements: seq<Placement>, offset: real)

  /** How far the second pass moves down after an entry whose summary has
      `lines` lines: two title sizes and one summary size per line. */
  function Advance(sizes: FontSizes, lines: int): real {
    (sizes.title * 2 + sizes.summary * lines) as real
  }

  /** The placement loop from `offset` on, over the wrapped titles and
      summaries: each title at the padding and `offset` down, its summary
      indented below it, and the offset moved on by `Advance`. */
  function PlaceFrom(titles: seq<string>, texts: seq<string>, sizes: FontSizes, indent: real, offset: real)
    : (p: Pass)
    requires |texts| == |titles|
    ensures |p.placements| == |titles|
    decreases |titles|
  {
    if |titles| == 0 then Pass([], offset)
    else
      var titleOrigin := Point(Padding as real, Padding as real + offset);
      var placement := Placement(titleOrigin, titles[0], SummaryOrigin(titleOrigin, indent, sizes.summary), texts[0]);
      var rest := PlaceFrom(titles[1..], texts[1..], sizes, indent, offset + Advance(sizes, LineCount(texts[0])));
      Pass([placement] + rest.placements, rest.offset)
  }

  /** `generate_image` reduced to what it draws where: `titleWidth` and
      `summaryWidth` measure text in the title and summary fonts. */
  function GenerateImage(entries: seq<Entry>, titleWidth: string -> real, summaryWidth: string -> real)
    : (placements: seq<Placement>)
    ensures |placements| == |entries|
  {
    var sizes := SizesFor(|entries|);
    var indent := summaryWidth("    ");
    var texts := WrapSummaries(entries, summaryWidth, SummaryLineLength(indent));
    PlaceFrom(WrapTitles(entries, titleWidth, TitleLineLength), texts, sizes, indent, StartOffset(Sizing(sizes, texts, 0.0))).placements
  }

  // ---------------------------------------------------------------------
  // The two passes

  /** One step of the placement loop: the first placement, and the rest
      placed from the offset moved on by the first summary. */
  lemma PlaceFromFirst(titles: seq<string>, texts: seq<string>, sizes: FontSizes, indent: real, offset: real)
    requires |texts| == |titles| && |titles| > 0
    ensures var p := PlaceFrom(titles, texts, sizes, indent, offset);
      var rest := PlaceFrom(titles[1..], texts[1..], sizes, indent, offset + Advance(sizes, LineCount(texts[0])));
      var titleOrigin := Point(Padding as real, Padding as real + offset);
      && p.offset == rest.offset
      && p.placements[1..] == rest.placements
      && p.placements[0] == Placement(titleOrigin, titles[0], SummaryOrigin(titleOrigin, indent, sizes.summary), texts[0])
  {
    var p := PlaceFrom(titles, texts, sizes, indent, offset);
    assert p.placements[1..] == (p.placements[..1] + p.placements[1..])[1..];
  }

  lemma PlaceFromOffset(titles: seq<string>, texts: seq<string>, sizes: FontSizes, indent: real, offset: real)
    requires |texts| == |titles| && |titles| > 0
    ensures PlaceFrom(titles, texts, sizes, indent, offset).offset
         == PlaceFrom(titles[1..], texts[1..], sizes, indent, offset + Advance(sizes, LineCount(texts[0]))).offset
  {
  }

  /** Per entry, the first pass counts one and a half summary sizes more
      than the second pass moves. */
  lemma EntryHeightIsAdvance(sizes: FontSizes, lines: int)
    ensures EntryHeight(sizes, lines) == Advance(sizes, lines) + 1.5 * sizes.summary as real
  {
    assert (sizes.summary * lines) as real == sizes.summary as real * lines as real;
  }

  /** One and a half summary sizes for each of `count` entries. */
  function Surplus(sizes: FontSizes, count: int): real {
    (3 * sizes.summary * count) as real / 2.0
  }

  /** Over all entries, the placement loop therefore advances by the sizing
      total less `1.5 * summary_font_size` per entry. */
  lemma {:induction false} PlacementAdvance(titles: seq<string>, texts: seq<string>, sizes: FontSizes, indent: real,
                                            offset: real, acc: real)
    requires |texts| == |titles|
    ensures PlaceFrom(titles, texts, sizes, indent, offset).offset - offset
         == Sizing(sizes, texts, acc) - acc - Surplus(sizes, |titles|)
    decreases |titles|
  {
    if |titles| > 0 {
      var lines := LineCount(texts[0]);
      PlaceFromOffset(titles, texts, sizes, indent, offset);
      PlacementAdvance(titles[1..], texts[1..], sizes, indent, offset + Advance(sizes, lines),
                       acc + EntryHeight(sizes, lines));
      EntryHeightIsAdvance(sizes, lines);
      SurplusStep(sizes, |titles|);
    }
  }

  lemma SurplusStep(sizes: FontSizes, count: int)
    ensures Surplus(sizes, count) == Surplus(sizes, count - 1) + 1.5 * sizes.summary as real
  {
    assert 3 * sizes.summary * count == 3 * sizes.summary * (count - 1) + 3 * sizes.summary;
  }

  /** What the placement loop draws for each entry: its title at the
      padding, its summary indented by `indent` and one and a half summary
      sizes lower. */
  lemma {:induction false} PlacementsIndented(titles: seq<string>, texts: seq<string>, sizes: FontSizes, indent: real,
                                              offset: real)
    requires |texts| == |titles|
    ensures var ps := PlaceFrom(titles, texts, sizes, indent, offset).placements;
      forall i :: 0 <= i < |ps| ==>
        && ps[i].titleOrigin.x == Padding as real
        && ps[i].title == titles[i]
        && ps[i].summary == texts[i]
        && ps[i].summaryOrigin.x - ps[i].titleOrigin.x == indent
        && ps[i].summaryOrigin.y - ps[i].titleOrigin.y == 1.5 * sizes.summary as real
    decreases |titles|
  {
    if |titles| > 0 {
      PlaceFromFirst(titles, texts, sizes, indent, offset);
      PlacementsIndented(titles[1..], texts[1..], sizes, indent, offset + Advance(sizes, LineCount(texts[0])));
    }
  }

  /** The first title is drawn `offset` below the padding, and each next
      title two title sizes and one summary size per line of the previous
      summary further down. */
  lemma {:induction false} PlacementsStack(titles: seq<string>, texts: seq<string>, sizes: FontSizes, indent: real,
                                           offset: real)
    requires |texts| == |titles|
    ensures var ps := PlaceFrom(titles, texts, sizes, indent, offset).placements;
      && (|ps| > 0 ==> ps[0].titleOrigin.y == Padding as real + offset)
      && forall i :: 0 <= i < |ps| - 1 ==>
           ps[i + 1].titleOrigin.y == ps[i].titleOrigin.y + Advance(sizes, LineCount(texts[i]))
    decreases |titles|
  {
    if |titles| > 0 {
      PlaceFromFirst(titles, texts, sizes, indent, offset);
      PlacementsStack(titles[1..], texts[1..], sizes, indent, offset + Advance(sizes, LineCount(texts[0])));
    }
  }

  /** What `generate_image` draws for each entry: its wrapped title at the
      padding, the first one the start offset below it, and its wrapped
      summary indented by four spaces of the summary font and one and a half
      summary sizes lower. */
  lemma GeneratedPlacements(entries: seq<Entry>, titleWidth: string -> real, summaryWidth: string -> real)
    ensures var ps := GenerateImage(entries, titleWidth, summaryWidth);
      var sizes := SizesFor(|entries|);
      var indent := summaryWidth("    ");
      var texts := WrapSummaries(entries, summaryWidth, SummaryLineLength(indent));
      && (|ps| > 0 ==> ps[0].titleOrigin == Point(Padding as real, Padding as real + StartOffset(Sizing(sizes, texts, 0.0))))
      && forall i :: 0 <= i < |ps| ==>
        && ps[i].title == WordWrap.WrapText(entries[i].title, titleWidth, TitleLineLength)
        && ps[i].summary == WordWrap.WrapText(entries[i].summary, summaryWidth, SummaryLineLength(indent))
        && ps[i].summaryOrigin.x - ps[i].titleOrigin.x == indent
        && ps[i].summaryOrigin.y - ps[i].titleOrigin.y == 1.5 * sizes.summary as real
  {
    var sizes := SizesFor(|entries|);
    var indent := summaryWidth("    ");
    var texts := WrapSummaries(entries, summaryWidth, SummaryLineLength(indent));
    var offset := StartOffset(Sizing(sizes, texts, 0.0));
    PlacementsIndented(WrapTitles(entries, titleWidth, TitleLineLength), texts, sizes, indent, offset);
    PlacementsStack(WrapTitles(entries, titleWidth, TitleLineLength), texts, sizes, indent, offset);
  }

  // ---------------------------------------------------------------------
  // The Monday test

  /** `word.lower() in ["måndag", "monday"]` */
  predicate IsMondayName(word: string) {
    Lower(word) == "m\U{E5}ndag" || Lower(word) == "monday"
  }

  /** `any(word.lower() in [...] for word in today.split())` */
  predicate IsMonday(today: string) {
    exists k :: 0 <= k < |Split(today)| && IsMondayName(Split(today)[k])
  }

  /** The words on either side of a whitespace character are looked at on their own. */
  lemma MondayAtSpace(a: string, c: char, b: string)
    requires IsSpace(c)
    ensures IsMonday(a + [c] + b) <==> IsMonday(a) || IsMonday(b)
  {
    SplitAtSpace(a, c, b);
    var sa, sb := Split(a), Split(b);
    if IsMonday(a) {
      var k :| 0 <= k < |sa| && IsMondayName(sa[k]);
      assert (sa + sb)[k] == sa[k];
    }
    if IsMonday(b) {
      var k :| 0 <= k < |sb| && IsMondayName(sb[k]);
      assert (sa + sb)[|sa| + k] == sb[k];
    }
  }

  /** A single word is a Monday title exactly when it is a weekday name for
      Monday in any mix of cases. */
  lemma MondayOfWord(w: string)
    requires IsWord(w)
    ensures IsMonday(w) <==> IsMondayName(w)
  {
    SplitWord(w);
    assert Split(w)[0] == w;
  }

  lemma {:induction false} SplitFromBlank(s: string)
    requires AllSpace(s)
    ensures SplitFrom(s, []) == []
    decreases |s|
  {
    if |s| > 0 {
      SplitFromBlank(s[1..]);
    }
  }

  /** A title of whitespace only is never a Monday title. */
  lemma MondayOfBlank(s: string)
    requires AllSpace(s)
    ensures !IsMonday(s)
  {
    SplitFromBlank(s);
  }

  /** The Swedish spellings of Monday, lowered. */
  lemma SwedishSpellingsLowered()
    ensures Lower("M\U{E5}ndag") == "m\U{E5}ndag" && Lower("m\U{E5}ndag") == "m\U{E5}ndag"
  {
  }

  /** The English spellings of Monday, lowered. */
  lemma EnglishSpellingsLowered()
    ensures Lower("Monday") == "monday" && Lower("monday") == "monday"
  {
  }

  /** The capitalised and lower-case spellings of Monday, lowered. */
  lemma MondaySpellingsLowered()
    ensures Lower("M\U{E5}ndag") == "m\U{E5}ndag" && Lower("m\U{E5}ndag") == "m\U{E5}ndag"
    ensures Lower("Monday") == "monday" && Lower("monday") == "monday"
  {
    SwedishSpellingsLowered();
    EnglishSpellingsLowered();
  }

  /** A title that starts with a Monday name, then a space, passes whatever follows. */
  lemma MondayFirstWord(day: string, rest: string)
    requires IsWord(day) && IsMondayName(day)
    ensures IsMonday(day + " " + rest)
  {
    MondayOfWord(day);
    MondayAtSpace(day, ' ', rest);
    assert day + [' '] + rest == day + " " + rest;
  }

  lemma SwedishExampleTitle()
    ensures IsMonday("M\U{E5}ndag 12 okt")
  {
    SwedishSpellingsLowered();
    MondayFirstWord("M\U{E5}ndag", "12 okt");
    assert "M\U{E5}ndag" + " " + "12 okt" == "M\U{E5}ndag 12 okt";
  }

  lemma EnglishExampleTitle()
    ensures IsMonday("Monday 12 Oct")
  {
    EnglishSpellingsLowered();
    MondayFirstWord("Monday", "12 Oct");
    assert "Monday" + " " + "12 Oct" == "Monday 12 Oct";
  }

  /** Example Monday titles are recognised, in either language. */
  lemma ExampleMondayTitles()
    ensures IsMonday("M\U{E5}ndag 12 okt")
    ensures IsMonday("Monday 12 Oct")
  {
    SwedishExampleTitle();
    EnglishExampleTitle();
  }
}

=== FILE: text.dfy ===
/** The parts of Python's `str` that the menu renderers use: `isspace`,
    `strip`, argument-less `split`, `split("\n")`, `"\n".join` and `lower`,
    over strings of Unicode scalar values. */
module Text {

  /** Python's `str.isspace` on one code point: the 29 characters Python
      treats as whitespace, namely the Unicode White_Space characters and the
      four separators U+001C to U+001F, whose bidirectional class counts. */
  predicate IsSpace(c: char) {
    || c == ' '
    || ('\t' <= c <= '\r')
    || ('\U{1C}' <= c <= '\U{1F}')
    || c == '\U{85}' || c == '\U{A0}' || c == '\U{1680}'
    || ('\U{2000}' <= c <= '\U{200A}')
    || c == '\U{2028}' || c == '\U{2029}' || c == '\U{202F}'
    || c == '\U{205F}' || c == '\U{3000}'
  }

  predicate AllSpace(s: string) {
    forall k :: 0 <= k < |s| ==> IsSpace(s[k])
  }

  /** A non-empty run of non-whitespace characters: one element of `s.split()`. */
  predicate IsWord(s: string) {
    |s| > 0 && forall k :: 0 <= k < |s| ==> !IsSpace(s[k])
  }

  /** What `s.strip()` returns: no whitespace at either end. */
  predicate IsStripped(s: string) {
    |s| == 0 || (!IsSpace(s[0]) && !IsSpace(s[|s| - 1]))
  }

  /** `s.lstrip()` */
  function TrimLeft(s: string): (r: string)
    ensures |r| <= |s|
    decreases |s|
  {
    if |s| > 0 && IsSpace(s[0]) then TrimLeft(s[1..]) else s
  }

  /** `s.rstrip()` */
  function TrimRight(s: string): (r: string)
    ensures |r| <= |s|
    decreases |s|
  {
    if |s| > 0 && IsSpace(s[|s| - 1]) then TrimRight(s[..|s| - 1]) else s
  }

  /** `s.lstrip()` removes a whitespace prefix and stops at the first
      non-whitespace character. */
  lemma {:induction false} TrimLeftSpec(s: string)
    ensures var r := TrimLeft(s);
      && r == s[|s| - |r|..]
      && AllSpace(s[..|s| - |r|])
      && (|r| == 0 || !IsSpace(r[0]))
    decreases |s|
  {
    if |s| > 0 && IsSpace(s[0]) {
      var r := TrimLeft(s[1..]);
      TrimLeftSpec(s[1..]);
      assert s[1..][|s| - 1 - |r|..] == s[|s| - |r|..];
      assert s[..|s| - |r|] == [s[0]] + s[1..][..|s| - 1 - |r|];
    }
  }

  /** `s.rstrip()` removes a whitespace suffix and stops at the last
      non-whitespace character. */
  lemma {:induction false} TrimRightSpec(s: string)
    ensures var r := TrimRight(s);
      && r == s[..|r|]
      && AllSpace(s[|r|..])
      && (|r| == 0 || !IsSpace(r[|r| - 1]))
    decreases |s|
  {
    if |s| > 0 && IsSpace(s[|s| - 1]) {
      var r := TrimRight(s[..|s| - 1]);
      TrimRightSpec(s[..|s| - 1]);
      assert s[..|s| - 1][..|r|] == s[..|r|];
      assert s[|r|..] == s[..|s| - 1][|r|..] + [s[|s| - 1]];
    }
  }

  /** `s` is `r` padded on the left with `i` whitespace characters and on
      the right with whitespace only. */
  predicate PaddedAt(s: string, i: int, r: string) {
    && 0 <= i && i + |r| <= |s|
    && s[i..i + |r|] == r
    && AllSpace(s[..i])
    && AllSpace(s[i + |r|..])
  }

  /** `s.strip()` */
  function Strip(s: string): (r: string)
    ensures |r| <= |s|
  {
    TrimRight(TrimLeft(s))
  }

  lemma SliceOfSuffix(s: string, i: nat, m: nat)
    requires i + m <= |s|
    ensures s[i..i + m] == s[i..][..m]
    ensures s[i + m..] == s[i..][m..]
  {
  }

  /** `s.strip()` is the stripped string that `s` pads with whitespace. */
  lemma StripSpec(s: string)
    ensures IsStripped(Strip(s))
    ensures PaddedAt(s, |s| - |TrimLeft(s)|, Strip(s))
  {
    var t := TrimLeft(s);
    var r := TrimRight(t);
    TrimLeftSpec(s);
    TrimRightSpec(t);
    SliceOfSuffix(s, |s| - |t|, |r|);
    if |r| > 0 {
      assert r[0] == t[0];
    }
  }

  /** Python's `s.lower()` on one code point, for the code points whose
      lower-case form is a single Latin letter: A-Z, the Latin-1 capitals,
      KELVIN SIGN and ANGSTROM SIGN. Every other code point is returned
      unchanged. */
  function LowerChar(c: char): char {
    if 'A' <= c <= 'Z' || ('\U{C0}' <= c <= '\U{DE}' && c != '\U{D7}') then
      (c as int + 32) as char
    else if c == '\U{212A}' then 'k'
    else if c == '\U{212B}' then '\U{E5}'
    else c
  }

  function Lower(s: string): (r: string)
    ensures |r| == |s|
    ensures forall k :: 0 <= k < |s| ==> !('A' <= r[k] <= 'Z')
    ensures forall k :: 0 <= k < |s| ==> ('a' <= s[k] <= 'z' ==> r[k] == s[k])
    ensures forall k :: 0 <= k < |s| ==> (IsSpace(r[k]) <==> IsSpace(s[k]))
  {
    seq(|s|, k requires 0 <= k < |s| => LowerChar(s[k]))
  }

  /** Lowering a lowered string changes nothing. */
  lemma LowerIdempotent(s: string)
    ensures Lower(Lower(s)) == Lower(s)
  {
  }

  // ---------------------------------------------------------------------
  // Non-whitespace content

  /** The non-whitespace characters of `s`, in order. */
  function NonSpace(s: string): (r: string)
    ensures |r| <= |s|
  {
    if |s| == 0 then []
    else NonSpace(s[..|s| - 1]) + (if IsSpace(s[|s| - 1]) then [] else [s[|s| - 1]])
  }

  lemma {:induction false} NonSpaceAppend(a: string, b: string)
    ensures NonSpace(a + b) == NonSpace(a) + NonSpace(b)
    decreases |b|
  {
    if |b| == 0 {
      assert a + b == a;
    } else {
      assert (a + b)[..|a + b| - 1] == a + b[..|b| - 1];
      assert (a + b)[|a + b| - 1] == b[|b| - 1];
      NonSpaceAppend(a, b[..|b| - 1]);
    }
  }

  /** A space between two strings adds nothing to their non-whitespace. */
  lemma NonSpaceAroundSpace(a: string, b: string)
    ensures NonSpace(a + " " + b) == NonSpace(a) + NonSpace(b)
  {
    NonSpaceAppend(a + " ", b);
    NonSpaceAppend(a, " ");
    assert " "[..0] == [];
    assert NonSpace(" ") == NonSpace([]) + [];
  }

  lemma NonSpaceOfLast(s: string)
    requires |s| > 0
    ensures NonSpace(s) == NonSpace(s[..|s| - 1]) + NonSpace([s[|s| - 1]])
  {
    var c := s[|s| - 1];
    assert [c][..0] == [];
    assert NonSpace([c]) == NonSpace([]) + (if IsSpace(c) then [] else [c]);
  }

  lemma {:induction false} NonSpaceOfSpace(s: string)
    requires AllSpace(s)
    ensures NonSpace(s) == []
    decreases |s|
  {
    if |s| > 0 {
      NonSpaceOfSpace(s[..|s| - 1]);
    }
  }

  lemma {:induction false} NonSpaceOfWord(s: string)
    requires forall k :: 0 <= k < |s| ==> !IsSpace(s[k])
    ensures NonSpace(s) == s
    decreases |s|
  {
    if |s| > 0 {
      NonSpaceOfWord(s[..|s| - 1]);
    }
  }

  /** Stripping only ever removes whitespace. */
  lemma StripKeepsNonSpace(s: string)
    ensures NonSpace(Strip(s)) == NonSpace(s)
  {
    var r := Strip(s);
    var i := |s| - |TrimLeft(s)|;
    StripSpec(s);
    assert s == s[..i] + r + s[i + |r|..];
    NonSpaceAppend(s[..i] + r, s[i + |r|..]);
    NonSpaceAppend(s[..i], r);
    NonSpaceOfSpace(s[..i]);
    NonSpaceOfSpace(s[i + |r|..]);
  }

  lemma StripOfStripped(s: string)
    requires IsStripped(s)
    ensures Strip(s) == s
  {
  }

  /** A single leading space goes, and nothing else. */
  lemma StripLeadingSpace(w: string)
    requires IsStripped(w) && |w| > 0
    ensures Strip(" " + w) == w
  {
    assert (" " + w)[1..] == w;
    assert TrimLeft(" " + w) == TrimLeft(w);
    assert TrimLeft(w) == w;
    assert TrimRight(w) == w;
  }

  /** Occurrences of `c` in `s`. */
  function Count(s: string, c: char): (n: nat)
    ensures n <= |s|
  {
    if |s| == 0 then 0
    else Count(s[..|s| - 1], c) + (if s[|s| - 1] == c then 1 else 0)
  }

  // ---------------------------------------------------------------------
  // str.split() with no argument

  function Flush(cur: string): seq<string> {
    if |cur| == 0 then [] else [cur]
  }

  /** The words of `cur + s`, where `cur` holds the characters of a word
      already begun. */
  function SplitFrom(s: string, cur: string): (r: seq<string>)
    requires forall k :: 0 <= k < |cur| ==> !IsSpace(cur[k])
    ensures forall k :: 0 <= k < |r| ==> IsWord(r[k])
    decreases |s|
  {
    if |s| == 0 then Flush(cur)
    else if IsSpace(s[0]) then Flush(cur) + SplitFrom(s[1..], [])
    else SplitFrom(s[1..], cur + [s[0]])
  }

  /** `s.split()`: the maximal runs of non-whitespace, in order. */
  function Split(s: string): (r: seq<string>)
    ensures forall k :: 0 <= k < |r| ==> IsWord(r[k])
  {
    SplitFrom(s, [])
  }

  lemma {:induction false} SplitFromAtSpace(a: string, c: char, b: string, cur: string)
    requires IsSpace(c)
    requires forall k :: 0 <= k < |cur| ==> !IsSpace(cur[k])
    ensures SplitFrom(a + [c] + b, cur) == SplitFrom(a, cur) + Split(b)
    decreases |a|
  {
    if |a| == 0 {
      assert a + [c] + b == [c] + b;
      assert ([c] + b)[1..] == b;
    } else {
      assert (a + [c] + b)[0] == a[0];
      assert (a + [c] + b)[1..] == a[1..] + [c] + b;
      if IsSpace(a[0]) {
        SplitFromAtSpace(a[1..], c, b, []);
      } else {
        SplitFromAtSpace(a[1..], c, b, cur + [a[0]]);
      }
    }
  }

  /** A whitespace character separates the words on its two sides. */
  lemma SplitAtSpace(a: string, c: char, b: string)
    requires IsSpace(c)
    ensures Split(a + [c] + b) == Split(a) + Split(b)
  {
    SplitFromAtSpace(a, c, b, []);
  }

  lemma {:induction false} SplitFromWord(w: string, cur: string)
    requires forall k :: 0 <= k < |cur| ==> !IsSpace(cur[k])
    requires forall k :: 0 <= k < |w| ==> !IsSpace(w[k])
    requires |cur + w| > 0
    ensures SplitFrom(w, cur) == [cur + w]
    decreases |w|
  {
    if |w| == 0 {
      assert cur + w == cur;
    } else {
      assert cur + [w[0]] + w[1..] == cur + w;
      SplitFromWord(w[1..], cur + [w[0]]);
    }
  }

  /** A word splits to itself. */
  lemma SplitWord(w: string)
    requires IsWord(w)
    ensures Split(w) == [w]
  {
    SplitFromWord(w, []);
    assert [] + w == w;
  }

  // ---------------------------------------------------------------------
  // "\n".join(lines) and text.split("\n")

  /** `"\n".join(lines)` */
  function Join(lines: seq<string>): string {
    if |lines| == 0 then ""
    else if |lines| == 1 then lines[0]
    else lines[0] + "\n" + Join(lines[1..])
  }

  lemma {:induction false} JoinAppend(lines: seq<string>, x: string)
    requires |lines| > 0
    ensures Join(lines + [x]) == Join(lines) + "\n" + x
    decreases |lines|
  {
    if |lines| > 1 {
      assert (lines + [x])[1..] == lines[1..] + [x];
      JoinAppend(lines[1..], x);
    }
  }

  /** `s.split("\n")`: the pieces between line breaks, always at least one. */
  function SplitLines(s: string): (r: seq<string>)
    ensures |r| >= 1
    decreases |s|
  {
    if |s| == 0 then [""]
    else
      var rest := SplitLines(s[1..]);
      if s[0] == '\n' then [""] + rest
      else [[s[0]] + rest[0]] + rest[1..]
  }

  /** Splitting at line breaks loses nothing: the pieces hold no break and
      joining them with breaks gives back the text. */
  lemma {:induction false} SplitLinesSpec(s: string)
    ensures forall k :: 0 <= k < |SplitLines(s)| ==> '\n' !in SplitLines(s)[k]
    ensures Join(SplitLines(s)) == s
    decreases |s|
  {
    if |s| > 0 {
      var rest := SplitLines(s[1..]);
      SplitLinesSpec(s[1..]);
      if s[0] == '\n' {
        assert s == "\n" + s[1..];
      } else {
        var r := [[s[0]] + rest[0]] + rest[1..];
        assert r[1..] == rest[1..];
        assert s == [s[0]] + s[1..];
        assert forall k :: 1 <= k < |r| ==> r[k] == rest[k];
      }
    }
  }

  /** A leading line break starts an empty first line... */
  lemma SplitLinesOfBreak(t: string)
    ensures SplitLines("\n" + t) == [""] + SplitLines(t)
  {
    assert ("\n" + t)[1..] == t;
  }

  /** ...and any other leading character joins the first line. */
  lemma SplitLinesOfChar(c: char, t: string)
    requires c != '\n'
    ensures SplitLines([c] + t) == [[c] + SplitLines(t)[0]] + SplitLines(t)[1..]
  {
    assert ([c] + t)[1..] == t;
  }

  /** The step of `SplitLinesAtBreak` for a leading line break. */
  lemma BreakBeforeBreak(t: string, la: seq<string>, lb: seq<string>)
    requires SplitLines(t) == la + lb
    ensures SplitLines("\n" + t) == ([""] + la) + lb
  {
    SplitLinesOfBreak(t);
    assert [""] + (la + lb) == ([""] + la) + lb;
  }

  /** The step of `SplitLinesAtBreak` for any other leading character. */
  lemma CharBeforeBreak(c: char, t: string, la: seq<string>, lb: seq<string>)
    requires c != '\n' && |la| >= 1
    requires SplitLines(t) == la + lb
    ensures SplitLines([c] + t) == ([[c] + la[0]] + la[1..]) + lb
  {
    SplitLinesOfChar(c, t);
    assert (la + lb)[0] == la[0];
    assert (la + lb)[1..] == la[1..] + lb;
  }

  lemma {:induction false} SplitLinesAtBreak(a: string, b: string)
    ensures SplitLines(a + "\n" + b) == SplitLines(a) + SplitLines(b)
    decreases |a|
  {
    if |a| == 0 {
      assert a + "\n" + b == "\n" + b;
      SplitLinesOfBreak(b);
    } else {
      var t := a[1..] + "\n" + b;
      assert a + "\n" + b == [a[0]] + t;
      SplitLinesAtBreak(a[1..], b);
      if a[0] == '\n' {
        BreakBeforeBreak(t, SplitLines(a[1..]), SplitLines(b));
        assert a == "\n" + a[1..];
        SplitLinesOfBreak(a[1..]);
      } else {
        CharBeforeBreak(a[0], t, SplitLines(a[1..]), SplitLines(b));
        assert a == [a[0]] + a[1..];
        SplitLinesOfChar(a[0], a[1..]);
      }
    }
  }

  lemma {:induction false} SplitLinesOfLine(l: string)
    requires '\n' !in l
    ensures SplitLines(l) == [l]
    decreases |l|
  {
    if |l| > 0 {
      assert l[0] in l;
      assert forall c :: c in l[1..] ==> c in l;
      SplitLinesOfLine(l[1..]);
      assert l == [l[0]] + l[1..];
    }
  }

  /** Joining lines free of breaks and splitting at breaks again gives back
      the same lines. */
  lemma {:induction false} SplitLinesOfJoin(lines: seq<string>)
    requires |lines| >= 1
    requires forall k :: 0 <= k < |lines| ==> '\n' !in lines[k]
    ensures SplitLines(Join(lines)) == lines
    decreases |lines|
  {
    if |lines| == 1 {
      SplitLinesOfLine(lines[0]);
    } else {
      SplitLinesAtBreak(lines[0], Join(lines[1..]));
      SplitLinesOfLine(lines[0]);
      SplitLinesOfJoin(lines[1..]);
    }
  }
}

=== FILE: word_wrap.dfy ===
/** The word-based greedy line breaker of the first and second renderers
    (the two copies are identical). The text is split into words; each word
    joins the last line when the widened, stripped line still fits the line
    length, and otherwise starts a line of its own. The lines are returned
    joined by line breaks. */
module WordWrap {
  import opened Text

  /** One iteration of the loop: place `word` after `lines`. */
  function Place(lines: seq<string>, word: string, width: string -> real, lineLength: real): (r: seq<string>)
    requires |lines| > 0
    ensures |lines| <= |r| <= |lines| + 1
    ensures r[..|lines| - 1] == lines[..|lines| - 1]
    ensures |r| == |lines| <==> width(Strip(lines[|lines| - 1] + " " + word)) <= lineLength
  {
    var line := Strip(lines[|lines| - 1] + " " + word);
    if width(line) <= lineLength then lines[..|lines| - 1] + [line]
    else lines + [word]
  }

  /** The line list after placing each of `words` in turn, starting from a
      single empty line. */
  function Lines(words: seq<string>, width: string -> real, lineLength: real): (r: seq<string>)
    ensures 1 <= |r| <= |words| + 1
    decreases |words|
  {
    if |words| == 0 then [""]
    else Place(Lines(words[..|words| - 1], width, lineLength), words[|words| - 1], width, lineLength)
  }

  /** `wrap_text(text, font, line_length)`: `width` is the font's `getlength`. */
  function WrapText(text: string, width: string -> real, lineLength: real): string {
    Join(Lines(Split(text), width, lineLength))
  }

  /** The words of each line, line after line. */
  function WordsOf(lines: seq<string>): seq<string> {
    if |lines| == 0 then [] else WordsOf(lines[..|lines| - 1]) + Split(lines[|lines| - 1])
  }

  /** What the loop keeps true of the line list built from `words`. */
  predicate Wrapped(lines: seq<string>, words: seq<string>, width: string -> real, lineLength: real) {
    && |lines| >= 1
    && (forall k :: 0 <= k < |lines| ==> IsStripped(lines[k]) && '\n' !in lines[k])
    && (forall k :: 0 < k < |lines| ==> lines[k] != "")
    && (|words| == 0 ==> lines == [""])
    && (lines[0] == "" <==> |words| == 0 || width(words[0]) > lineLength)
    && (forall k :: 0 <= k < |lines| ==>
          width(lines[k]) <= lineLength || IsWord(lines[k]) || (k == 0 && lines[k] == ""))
    && WordsOf(lines) == words
  }

  /** Every line break was forced: after a non-empty line, the next line
      starts with a word that would not have fitted on it. */
  predicate BreaksForced(lines: seq<string>, width: string -> real, lineLength: real) {
    forall k :: 0 <= k < |lines| - 1 && lines[k] != "" ==>
      |Split(lines[k + 1])| > 0 && width(lines[k] + " " + Split(lines[k + 1])[0]) > lineLength
  }

  lemma WordHasNoBreak(w: string)
    requires IsWord(w)
    ensures '\n' !in w && IsStripped(w)
  {
  }

  lemma WordsOfAppend(lines: seq<string>, x: string)
    ensures WordsOf(lines + [x]) == WordsOf(lines) + Split(x)
  {
    assert (lines + [x])[..|lines|] == lines;
  }

  lemma FirstWordFits(w: string, width: string -> real, lineLength: real)
    requires IsWord(w) && width(w) <= lineLength
    ensures Wrapped([w], [w], width, lineLength)
  {
    WordHasNoBreak(w);
    SplitWord(w);
    WordsOfAppend([], w);
  }

  lemma FirstWordTooWide(w: string, width: string -> real, lineLength: real)
    requires IsWord(w) && width(w) > lineLength
    ensures Wrapped(["", w], [w], width, lineLength)
  {
    WordHasNoBreak(w);
    SplitWord(w);
    WordsOfAppend([], "");
    WordsOfAppend([""], w);
    assert Split("") == [];
  }

  /** Placing a word when the line list is still the single empty line:
      that is, placing the first word. */
  lemma PlaceOnEmpty(lines: seq<string>, words: seq<string>, w: string, width: string -> real, lineLength: real)
    requires Wrapped(lines, words, width, lineLength) && IsWord(w)
    requires lines[|lines| - 1] == ""
    ensures Wrapped(Place(lines, w, width, lineLength), words + [w], width, lineLength)
  {
    assert lines == [""] by {
      assert |lines| == 1;
    }
    assert words == [] by {
      WordsOfAppend([], "");
      assert Split("") == [];
    }
    assert Place(lines, w, width, lineLength)
        == if width(w) <= lineLength then [w] else ["", w] by {
      StripLeadingSpace(w);
      assert "" + " " + w == " " + w;
      WordHasNoBreak(w);
    }
    if width(w) <= lineLength {
      FirstWordFits(w, width, lineLength);
    } else {
      FirstWordTooWide(w, width, lineLength);
    }
  }

  /** A word joins a non-empty last line: the line grows by a space and the word. */
  lemma JoinLine(lines: seq<string>, words: seq<string>, w: string, width: string -> real, lineLength: real)
    requires Wrapped(lines, words, width, lineLength) && IsWord(w)
    requires lines[|lines| - 1] != ""
    requires width(lines[|lines| - 1] + " " + w) <= lineLength
    ensures Wrapped(lines[..|lines| - 1] + [lines[|lines| - 1] + " " + w], words + [w], width, lineLength)
  {
    var n := |lines|;
    var last := lines[n - 1];
    var init := lines[..n - 1];
    var line := last + " " + w;
    var r := init + [line];
    assert lines == init + [last];
    assert |words| > 0;
    WordHasNoBreak(w);
    assert IsStripped(line) by {
      assert line[0] == last[0];
      assert line[|line| - 1] == w[|w| - 1];
    }
    assert WordsOf(r) == words + [w] by {
      SplitWord(w);
      WordsOfAppend(init, last);
      WordsOfAppend(init, line);
      SplitAtSpace(last, ' ', w);
      assert last + " " + w == last + [' '] + w;
    }
    assert (words + [w])[0] == words[0];
    assert forall k :: 0 <= k < n - 1 ==> r[k] == lines[k];
  }

  /** A word opens a new line of its own. */
  lemma OpenLine(lines: seq<string>, words: seq<string>, w: string, width: string -> real, lineLength: real)
    requires Wrapped(lines, words, width, lineLength) && IsWord(w)
    requires lines[|lines| - 1] != ""
    ensures Wrapped(lines + [w], words + [w], width, lineLength)
  {
    assert |words| > 0;
    WordHasNoBreak(w);
    SplitWord(w);
    WordsOfAppend(lines, w);
    assert (words + [w])[0] == words[0];
  }

  /** Placing a word after a non-empty last line. */
  lemma PlaceAfterLine(lines: seq<string>, words: seq<string>, w: string, width: string -> real, lineLength: real)
    requires Wrapped(lines, words, width, lineLength) && IsWord(w)
    requires lines[|lines| - 1] != ""
    ensures Wrapped(Place(lines, w, width, lineLength), words + [w], width, lineLength)
  {
    var line := lines[|lines| - 1] + " " + w;
    assert Strip(line) == line by {
      WordHasNoBreak(w);
      assert line[0] == lines[|lines| - 1][0];
      assert line[|line| - 1] == w[|w| - 1];
      StripOfStripped(line);
    }
    if width(line) <= lineLength {
      JoinLine(lines, words, w, width, lineLength);
    } else {
      OpenLine(lines, words, w, width, lineLength);
    }
  }

  lemma PlaceKeeps(lines: seq<string>, words: seq<string>, w: string, width: string -> real, lineLength: real)
    requires Wrapped(lines, words, width, lineLength) && IsWord(w)
    ensures Wrapped(Place(lines, w, width, lineLength), words + [w], width, lineLength)
  {
    if lines[|lines| - 1] == "" {
      PlaceOnEmpty(lines, words, w, width, lineLength);
    } else {
      PlaceAfterLine(lines, words, w, width, lineLength);
    }
  }

  /** A word that joins a non-empty last line leaves that line's first word
      in place, so the break before it stays forced. */
  lemma JoinForced(lines: seq<string>, w: string, width: string -> real, lineLength: real)
    requires |lines| > 0 && BreaksForced(lines, width, lineLength) && IsWord(w)
    requires lines[|lines| - 1] != ""
    ensures BreaksForced(lines[..|lines| - 1] + [lines[|lines| - 1] + " " + w], width, lineLength)
  {
    var n := |lines|;
    var last := lines[n - 1];
    var line := last + " " + w;
    var r := lines[..n - 1] + [line];
    if n > 1 && lines[n - 2] != "" {
      assert Split(line) == Split(last) + Split(w) by {
        SplitAtSpace(last, ' ', w);
        assert line == last + [' '] + w;
      }
      assert Split(line)[0] == Split(last)[0];
    }
    assert forall k :: 0 <= k < n - 1 ==> r[k] == lines[k];
  }

  /** A word that opens a line did not fit after the non-empty last line. */
  lemma OpenForced(lines: seq<string>, w: string, width: string -> real, lineLength: real)
    requires |lines| > 0 && BreaksForced(lines, width, lineLength) && IsWord(w)
    requires lines[|lines| - 1] != ""
    requires width(lines[|lines| - 1] + " " + w) > lineLength
    ensures BreaksForced(lines + [w], width, lineLength)
  {
    SplitWord(w);
    assert forall k :: 0 <= k < |lines| ==> (lines + [w])[k] == lines[k];
  }

  /** Placing a word keeps every break forced. */
  lemma PlaceForced(lines: seq<string>, words: seq<string>, w: string, width: string -> real, lineLength: real)
    requires Wrapped(lines, words, width, lineLength) && BreaksForced(lines, width, lineLength) && IsWord(w)
    ensures BreaksForced(Place(lines, w, width, lineLength), width, lineLength)
  {
    var last := lines[|lines| - 1];
    if last == "" {
      assert |lines| == 1;
      assert Place(lines, w, width, lineLength) == if width(w) <= lineLength then [w] else ["", w] by {
        StripLeadingSpace(w);
        assert "" + " " + w == " " + w;
        WordHasNoBreak(w);
      }
    } else {
      var line := last + " " + w;
      assert Strip(line) == line by {
        WordHasNoBreak(w);
        assert line[0] == last[0];
        assert line[|line| - 1] == w[|w| - 1];
        StripOfStripped(line);
      }
      if width(line) <= lineLength {
        JoinForced(lines, w, width, lineLength);
      } else {
        OpenForced(lines, w, width, lineLength);
      }
    }
  }

  /** Every break in the line list was forced. */
  lemma {:induction false} LinesForced(words: seq<string>, width: string -> real, lineLength: real)
    requires forall k :: 0 <= k < |words| ==> IsWord(words[k])
    ensures BreaksForced(Lines(words, width, lineLength), width, lineLength)
    decreases |words|
  {
    if |words| > 0 {
      var init := words[..|words| - 1];
      LinesForced(init, width, lineLength);
      LinesWrapped(init, width, lineLength);
      PlaceForced(Lines(init, width, lineLength), init, words[|words| - 1], width, lineLength);
    }
  }

  /** The loop invariant holds after every word. */
  lemma {:induction false} LinesWrapped(words: seq<string>, width: string -> real, lineLength: real)
    requires forall k :: 0 <= k < |words| ==> IsWord(words[k])
    ensures Wrapped(Lines(words, width, lineLength), words, width, lineLength)
    decreases |words|
  {
    if |words| == 0 {
      assert WordsOf([""]) == WordsOf([]) + Split("");
      assert Split("") == [];
    } else {
      var init := words[..|words| - 1];
      LinesWrapped(init, width, lineLength);
      PlaceKeeps(Lines(init, width, lineLength), init, words[|words| - 1], width, lineLength);
      assert init + [words[|words| - 1]] == words;
    }
  }

  /** Joining lines at line breaks keeps every line's words, in order. */
  lemma {:induction false} SplitOfJoin(lines: seq<string>)
    requires |lines| >= 1
    ensures Split(Join(lines)) == WordsOf(lines)
    decreases |lines|
  {
    if |lines| == 1 {
      assert WordsOf(lines) == WordsOf([]) + Split(lines[0]);
    } else {
      var init := lines[..|lines| - 1];
      var x := lines[|lines| - 1];
      assert lines == init + [x];
      JoinAppend(init, x);
      SplitAtSpace(Join(init), '\n', x);
      assert Join(init) + "\n" + x == Join(init) + ['\n'] + x;
      SplitOfJoin(init);
    }
  }

  // ---------------------------------------------------------------------
  // What the callers see

  /** Splitting the result at line breaks gives back the line list: the
      caller's `len(text.split("\n"))` counts exactly the lines built. */
  lemma WrapLines(text: string, width: string -> real, lineLength: real)
    ensures SplitLines(WrapText(text, width, lineLength)) == Lines(Split(text), width, lineLength)
  {
    LinesWrapped(Split(text), width, lineLength);
    SplitLinesOfJoin(Lines(Split(text), width, lineLength));
  }

  /** No word is lost, split, merged or reordered. */
  lemma WrapKeepsWords(text: string, width: string -> real, lineLength: real)
    ensures Split(WrapText(text, width, lineLength)) == Split(text)
  {
    LinesWrapped(Split(text), width, lineLength);
    SplitOfJoin(Lines(Split(text), width, lineLength));
  }

  /** Every line fits, or holds a single word that did not fit after the
      previous line, or is the untouched empty first line. */
  lemma WrapLinesFit(text: string, width: string -> real, lineLength: real)
    ensures var lines := SplitLines(WrapText(text, width, lineLength));
      forall k :: 0 <= k < |lines| ==>
        width(lines[k]) <= lineLength || IsWord(lines[k]) || (k == 0 && lines[k] == "")
  {
    WrapLines(text, width, lineLength);
    LinesWrapped(Split(text), width, lineLength);
  }

  /** The first line is empty exactly when there are no words or the first
      word alone is too wide; every later line holds something. */
  lemma WrapFirstLine(text: string, width: string -> real, lineLength: real)
    ensures var lines := SplitLines(WrapText(text, width, lineLength));
      var words := Split(text);
      && (lines[0] == "" <==> |words| == 0 || width(words[0]) > lineLength)
      && (forall k :: 0 < k < |lines| ==> lines[k] != "")
  {
    WrapLines(text, width, lineLength);
    LinesWrapped(Split(text), width, lineLength);
  }

  /** Every line break in the result was forced: the first word of the next
      line would not have fitted after a non-empty line. */
  lemma WrapBreaksForced(text: string, width: string -> real, lineLength: real)
    ensures var lines := SplitLines(WrapText(text, width, lineLength));
      forall k :: 0 <= k < |lines| - 1 && lines[k] != "" ==>
        |Split(lines[k + 1])| > 0 && width(lines[k] + " " + Split(lines[k + 1])[0]) > lineLength
  {
    WrapLines(text, width, lineLength);
    LinesForced(Split(text), width, lineLength);
  }
}
